=== FILE: README.md ===
# gosqlite ingestion cascade, in Dafny

This project models the upload and ingestion core of gosqlite (`main.go`).
gosqlite is a small file server that stores every uploaded file, derives
further artifacts from it, and indexes text in an SQLite FTS5 table:

- **Classifiers.** Four case-sensitive suffix tests over fixed extension
  tables (`IsTextFile`, `IsDoc`, `IsVideo`, `IsImage`).
- **`postFileHandler`.** It writes a stream to `parentDir/name`, then, with
  `cascade` set:
  - a document gets a text extract (`name--extract.txt`) and, for a PDF, a
    thumbnail;
  - a video or an image gets a thumbnail (`name--thumbnail.png`), and an
    image gets labels (`name--labels.json`) when the Vision API is on;
  - every derived artifact is fed back into the handler itself;
  - a text file is read in 4096-byte buffers, one index row per buffer.
- **The POST entry.** `rootRouter` splits the URL path on `/`.
  `postHandler` dispatches `/files/...`. `postFilesHandler` rebuilds the
  directory and name from the tokens, then ingests the body, or, with
  `install=true`, every regular entry of a tar archive below that path. It
  stops at the first entry that fails. Its check for a path of fewer than
  two tokens cannot send its error reply: it hands `HandleError` the
  error variable declared at main.go:443, still nil, and `HandleError`
  calls its `Error` method (main.go:759), so the handler panics instead.
  `postHandler` never routes such a path there, so no request reaches it.

The model is functional:

- The file system is a map from path to bytes, and the full-text index a
  list of rows that only grows.
- The external services (document extraction, the three thumbnailers,
  label detection) are oracles from a path and its bytes to a stream or an
  error. Whether the database accepts a row is an oracle too, and so is the
  Vision API switch.
- Each step returns the new world and an outcome.
- A trace records every handler call entered, with its recursion depth,
  and every service invoked. This lets contracts state what happened and
  in which order.

Modules:

| module | file | content |
|---|---|---|
| `Wrappers` | `wrappers.dfy` | the `Result` the services return |
| `Strings` | `strings.dfy` | `strings.HasSuffix`, `Split`, `Join` |
| `GoPath` | `gopath.dfy` | `path.Ext`, `Clean`, `Dir`, `Base`; ASCII `strings.ToLower` |
| `FileTypes` | `filetypes.dfy` | the classifiers and the kind of a name |
| `TextIndex` | `textindex.dfy` | index rows, 4096-byte chunks, the read loop as a method |
| `Ingest` | `ingest.dfy` | `postFileHandler` and its branches |
| `IngestFacts` | `ingest_facts.dfy` | what one call does on each branch |
| `Upload` | `upload.dfy` | `postHandler`, `postFilesHandler`, the tar install loop |

`Ingest.PostFile` carries the contract every branch keeps. The entry event
comes first. The file holds exactly the stream's bytes, whatever the
command, because `os.Create` truncates. The trace, index and store change
only in ways that belong to the call (predicate `Extends`):

- Every later event is either a service fit for the file's kind, invoked on
  the call's own file, or a nested call one level down.
- A nested call derives nothing. It keeps the verb, directory and original
  location, and its name extends the caller's.
- Every new index row carries the call's columns.
- The store changes only below the call's path.
- A call that derives nothing adds no events.

The recursion measure (`Ingest.Rank`) is 1 for a call that derives and 0
for one that does not. It decreases on every recursive call: a thumbnail is
ingested with cascade off, and an extract or labels name ends in `.txt` or
`.json`, which is text only.

## Model

| member | source | states |
|---|---|---|
| `FileTypes.Classify` | main.go:49-113 | each kind holds exactly when its classifier does, and a name none accepts is opaque; at most one classifier holds for any name, so the order the handler tests them in never matters |
| `FileTypes.IsTextFile` | main.go:49-61 | definition: a name ending in `.txt`, `.json` or `.html`; see `FileTypes.EndsWithAnyWitness` and `FileTypes.Classify` |
| `FileTypes.IsDoc` | main.go:63-90 | definition: a name ending in one of the eight office and PDF extensions; see `FileTypes.EndsWithAnyWitness` and `FileTypes.Classify` |
| `FileTypes.IsVideo` | main.go:92-97 | definition: a name ending in `.mp4`; see `FileTypes.Classify` |
| `FileTypes.IsImage` | main.go:99-113 | definition: a name ending in `.jpg`, `.jpeg`, `.png` or `.gif`; see `FileTypes.EndsWithAnyWitness` and `FileTypes.Classify` |
| `FileTypes.ClassifiersExclusive` | main.go:49-113 | no name satisfies two classifiers |
| `FileTypes.TablesExclusive` | main.go:49-113 | two tables of dot extensions with no common entry never both match one name |
| `FileTypes.DotSuffixesCoincide` | main.go:49-113 | two dot extensions that are both suffixes of one name are equal, so no table entry is a suffix of an entry of another table |
| `FileTypes.EndsWithAnyWitness` | main.go:49-113 | a chain of `HasSuffix` tests succeeds exactly when some table entry is a suffix of the name |
| `FileTypes.ClassifyIgnoresDirectory` | main.go:281 | the kind of `parentDir/name`, which the classifiers see, is the kind of `name`: no extension contains a slash |
| `FileTypes.ClassifyOfTail` | main.go:336-391 | a name with a fixed tail of five or more characters has the tail's kind, so a derived name's kind is fixed by its suffix |
| `Ingest.DerivedCallIsLeaf` | main.go:336-392 | the call for a derived artifact never derives again: an extract or labels name is text, and a thumbnail is ingested with cascade off |
| `Ingest.PostFile` | main.go:270-440 | the entry event comes first; the stored file is exactly the stream's bytes for every command; a copy error fails the call with `WriteFailed`; a call that derives nothing fails exactly when its copy fails; every later event, index row and store change belongs to the call; a failure is never deeper than one level |
| `Ingest.DocumentCascade` | main.go:323-358 | the document branch invokes only extraction and, for a `.pdf`, the PDF thumbnailer, on its own file; its nested calls are one level down and keep the caller's verb, directory and origin |
| `Ingest.ImageCascade` | main.go:373-401 | the image branch invokes only the image thumbnailer and, when the Vision API is on, label detection, with the same bounds on what it changes |
| `Ingest.ImageLabels` | main.go:386-398 | a detection error fails the call with `ServiceFailed(DetectLabels, ...)`; detected labels are stored as `name--labels.json` with exactly the detected bytes, and the call succeeds whether or not their ingestion does; only what belongs to the call changes |
| `Ingest.DeriveAndIngest` | main.go:330-340 | a service call (this one and its copies at lines 344-353, 361-369 and 375-383) followed by the ingestion of its output one level down changes only what belongs to the call, and any failure it reports is at most one level deep |
| `Ingest.ChildExtends` | main.go:336-392 | a service invocation followed by a nested call for a derived name is part of the caller's ingestion |
| `Ingest.TextRowsBelongToCall` | main.go:431-434 | every row of an indexing pass carries exactly the call's verb, `parentDir + "/"`, name and original location, so its name equals the call's |
| `IngestFacts.CopyErrorStopsEarly` | main.go:314-320 | after a read error the bytes already delivered stay in the file, the index is untouched, nothing but the entry is traced, and the call fails |
| `IngestFacts.PlainFileOnlyWritten` | main.go:323-439 | with cascade off or an opaque name, the call writes the file and succeeds: no service, no nested call, no index row |
| `IngestFacts.TextFileIndexed` | main.go:403-437 | a text file with cascade on is indexed from the size the file had before the write, with no service or nested call, and the call succeeds |
| `IngestFacts.AppendIndexesOnlyNewBytes` | main.go:302-436 | posting a text file again with bytes appended adds rows for the appended bytes only, numbered again from part 0, and keeps the earlier rows |
| `IngestFacts.VideoBranch` | main.go:360 | a copied video with cascade on takes the video branch |
| `IngestFacts.ImageBranch` | main.go:373 | a copied image with cascade on takes the image branch |
| `IngestFacts.DocumentBranch` | main.go:323 | a copied document with cascade on takes the document branch |
| `IngestFacts.DeriveSteps` | main.go:330-340 | a service error fails the step after one traced invocation and changes nothing else; an output is stored under the derived name by a nested call with the given cascade flag, and the step fails exactly when that copy fails; with cascade on and a good copy the output's new bytes are indexed under the derived name, and otherwise no index row is added |
| `IngestFacts.DerivedCallIndex` | main.go:336-340 | an extract or labels file ingested with cascade on is text, so the nested call indexes its bytes past the size it had before under the derived name; a thumbnail, or an output whose copy fails, adds no row |
| `IngestFacts.LeafSteps` | main.go:281-437 | a call that derives nothing traces only its own entry, writes its own file and no other, fails exactly when its copy fails, and indexes its new bytes exactly when it is a text file with cascade on whose copy succeeded |
| `IngestFacts.PdfTestForDocuments` | main.go:342-343 | for a document, the lower-cased `path.Ext` is `.pdf` exactly when the name ends in `.pdf` |
| `IngestFacts.DocumentExtractFails` | main.go:330-334 | a failed extraction fails the call after the write, with nothing derived or indexed |
| `IngestFacts.DocumentExtractIngested` | main.go:336-340 | the extract is stored as `name--extract.txt` by a nested call with the caller's verb, directory, origin and cascade flag; when its copy succeeds, its new bytes are the index rows the call adds under the extract's name; when its copy fails, the call fails with that failure and its trace ends with the nested call, so no thumbnail is requested |
| `IngestFacts.ExtractIndexed` | main.go:336-340 | after a good copy of the extract, the call's index is the extract's text pass under `name--extract.txt`: a PDF thumbnail adds no row |
| `IngestFacts.ExtractIngestFails` | main.go:336-340 | when the extract's copy fails, the document call's trace is its entry, the extraction and the nested call, and nothing after |
| `IngestFacts.DocumentTraceAfterExtract` | main.go:342-354 | after the extract, a PDF's trace ends with the PDF thumbnail request, followed by the thumbnail's own call exactly when the thumbnailer answered; any other document's trace ends with the extract's call |
| `IngestFacts.ExtractIngested` | main.go:342-357 | after a successful extract, the call goes on to the PDF thumbnail exactly when the lower-cased extension is `.pdf`, and otherwise ends |
| `IngestFacts.PdfThumbnailOnlyForPdf` | main.go:330-354 | a document call requests a PDF thumbnail exactly when the extraction succeeded, the extract's copy succeeded, and the name ends in `.pdf` |
| `IngestFacts.VideoThumbnailOnly` | main.go:360-371 | a video gets exactly one service call, a thumbnail stored as `name--thumbnail.png` with cascade off; either failure fails the call |
| `IngestFacts.ImageThumbnailFatal` | main.go:374-384 | a failed image thumbnail fails the call, and labels are never requested |
| `IngestFacts.ImageThumbnailFails` | main.go:374-384 | an image call whose thumbnail failed fails, and its trace after the entry is exactly the thumbnail request, followed by the thumbnail's own call when the service answered and only its copy failed |
| `IngestFacts.ImageThumbnailIngested` | main.go:374-401 | when the thumbnailer answers, the request and the thumbnail's call with cascade off come right after the image's entry, and the thumbnail stays stored as `name--thumbnail.png`; a failed copy of it fails the call; after a good copy, label detection is the next request when the Vision API is on, and otherwise the call ends there and succeeds with no index row |
| `IngestFacts.LabelDetectionFatal` | main.go:386-390 | a failed label detection fails the call |
| `IngestFacts.LabelIngestFailureIgnored` | main.go:391-398 | labels are stored as `name--labels.json` with the caller's cascade flag, and the call succeeds even when that ingestion fails |
| `IngestFacts.ImageLabelsIngested` | main.go:373-401 | an image with a good thumbnail and detected labels succeeds and ends in exactly this world: the image, the thumbnail and the labels stored, the labels' new bytes as the only new index rows (none when their copy fails), and the trace the entry, the thumbnail request and call, the detection request and the labels' call |
| `IngestFacts.DerivedStore` | main.go:336-339 | a derive step whose service answers changes exactly one file, the derived one |
| `IngestFacts.LabelsIngested` | main.go:386-397 | detected labels leave exactly this world: the detection request and the labels file's call on the trace, the labels stored as `name--labels.json` and no other file changed, and their new bytes indexed under that name unless their copy fails; the step succeeds either way |
| `IngestFacts.LabelsKeepThumbnail` | main.go:386-397 | label detection appends its request to the trace and never touches the image's thumbnail file |
| `IngestFacts.LabelsOnlyWithVision` | main.go:373-390 | labels are requested only for an image and only with the Vision API on |
| `IngestFacts.RecursionOneLevelDeep` | main.go:336-392 | a top-level ingestion enters exactly one call at depth 0, itself, as its first event; every other call it enters is at depth 1 and derives nothing |
| `TextIndex.Chunks` | main.go:424-436 | the buffers a read loop fills are non-empty, all full but the last, and concatenate to the data read |
| `TextIndex.IndexedBytes` | main.go:410-413 | the bytes read after the seek to the size taken at lines 302-306 are the new content past the old size, or nothing when the old size reaches the end |
| `TextIndex.IndexText` | main.go:403-437 | the old rows stay in front; every new row was accepted by the database, carries the pass's columns, and holds the buffer its part number names; the row for each buffer is among the new rows exactly when the database accepts it; the new rows are in strictly increasing part order, and there are at most as many as buffers |
| `TextIndex.AcceptedKeepsOrder` | main.go:425-434 | dropping refused rows keeps the remaining rows in strictly increasing part order |
| `TextIndex.RowsPartitionIndexedBytes` | main.go:424-436 | the rows of one pass number their parts 0, 1, 2, ... in order, hold at most 4096 bytes each, carry the pass's columns, and give back the indexed bytes when their contents are concatenated in part order |
| `TextIndex.AcceptedMembers` | main.go:431-434 | a refused row is dropped and the loop goes on: the kept rows are exactly the accepted ones |
| `TextIndex.Insert` | main.go:431-434 | a refused row leaves the index as it was; an accepted row is added at the end and nothing else changes |
| `TextIndex.AcceptedAll` | main.go:253-266 | when the database accepts every row, all rows are kept in order |
| `TextIndex.ShortRewriteIndexesNothing` | main.go:410-413 | rewriting a file with no more bytes than it had indexes nothing |
| `TextIndex.ReadAndIndex` | main.go:410-436 | the imperative loop (seek past the old size, read buffers until end of file, insert a row per buffer with `part` counting from 0, skip refused rows) produces the index `IndexText` describes |
| `TextIndex.ReadOnce` | main.go:427-435 | one turn reads a buffer that moves the position forward and keeps the loop invariant |
| `TextIndex.ReadStep` | main.go:427-435 | one read and insert keeps the loop invariant: chunks read so far plus the chunks left give the indexed chunks, and the index holds the kept rows for the chunks read |
| `Strings.Split` | main.go:775 | the pieces are separator-free, there is at least one, and joining them back gives the input |
| `Strings.SplitJoin` | main.go:462 | splitting a join of separator-free pieces gives the pieces back |
| `Strings.JoinDropLast` | main.go:462-463 | the directory joined from all tokens but the last, a slash and the last token rebuild the joined path |
| `GoPath.ToLower` | main.go:342 | the result has the input's length and no upper-case letter, and every character that is not an upper-case letter is unchanged |
| `GoPath.ToLowerKeepsLowercase` | main.go:342 | lower-casing a string with no upper-case letter leaves it as it is |
| `GoPath.Ext` | main.go:342 | the extension is empty or starts with a dot and is a suffix of the path; see `GoPath.ExtOfDotSuffix` |
| `GoPath.ExtOfDotSuffix` | main.go:342 | a name ending in a dot extension has exactly that extension |
| `GoPath.BaseIsLastElement` | main.go:480 | the base of a path whose last element is non-empty is that element |
| `GoPath.Base` | main.go:480 | definition: the last element after trailing slashes are stripped; see `GoPath.BaseIsLastElement` |
| `GoPath.DirOfRootedPath` | main.go:479 | `Dir` of a rooted destination followed by plain elements drops only the final element |
| `GoPath.Dir` | main.go:479 | definition: the cleaned path up to its last slash; see `GoPath.DirOfRootedPath` |
| `GoPath.Clean` | main.go:479 | definition: lexical cleaning of `.`, `..` and repeated slashes; see `GoPath.CleanRootedNormal` |
| `Upload.Install` | main.go:466-488 | the loop ingests the regular entries in archive order, each from the world the previous one left; it succeeds exactly when every regular entry was ingested and each succeeded; when it fails, every entry before the last one ingested succeeded, the last one failed with the loop's failure, and no later entry was attempted; the root calls on the trace are the regular entries' calls, all of them on success and a non-empty prefix on failure |
| `Upload.InstallOne` | main.go:475-487 | a regular entry is ingested first; a failure there is the whole result, and otherwise the rest of the archive is installed from the world it left |
| `Upload.IngestEntry` | main.go:482 | ingesting one entry enters exactly one root call, its own |
| `Upload.PostFileHasOneRoot` | main.go:482 | a top-level `postFileHandler` call enters only itself at depth 0 |
| `Upload.ArchiveEntryDestination` | main.go:477-480 | an entry `lead/m1/.../mk/f` with plain components goes to directory `parentDir/name/m1/.../mk` as file `f`, whatever its first component |
| `Upload.EntryDestination` | main.go:477-480 | definition: the cleaned directory and the base name an entry is written to; see `Upload.ArchiveEntryDestination` |
| `Upload.EntryCall` | main.go:482 | definition: the entry's call has the loop's verb, cascade on, and its destination as both location and origin; see `Upload.ArchiveEntryDestination` |
| `Upload.PostFiles` | main.go:442-497 | a path of fewer than two tokens makes the handler panic, because the error it reports is still nil, and every other path is handled; a single upload enters one root call with verb `tokens[1]`, cascade on, and its own location as origin; with `files` put second, the tokens but the last, rejoined, are its directory and the last token its name, so those are the path and name columns of its index rows; the body is stored there; an install enters the archive's regular entries as root calls below that path, in archive order |
| `Upload.Post` | main.go:499-505 | a POST never reaches the panicking branch; a single upload enters a `files` root call with cascade on, stored under exactly the request path, with its own location as origin, the request path's tokens but the last, rejoined, as directory and the last token as name; an install enters the regular entries as `files` root calls below the request path, in archive order |
| `Upload.FilesUpload` | main.go:462-463 | for tokens with `files` second, a single upload's directory is the tokens but the last, rejoined, and its name the last token |
| `Upload.DispatchCondition` | main.go:500 | the router's test, more than two tokens with `files` second, holds exactly when the path is a slash-free first token, then `/files/`, then anything |
| `Upload.PostDispatch` | main.go:500-504 | a POST is handled exactly when its path is a slash-free first token, then `/files/`, then anything; every other POST is answered `501 Not Implemented` |
| `Upload.HandledPathShape` | main.go:500 | a handled path is its first token, `/files/` and the remaining tokens rejoined |
| `Upload.SplitFilesPath` | main.go:775 | splitting `a/files/rest`, with no slash in `a`, gives `a`, `files` and the tokens of `rest` |

## Left out

- HTTP responses: status codes are not modelled. `HandleReturnedError` writes a 500 at each level of a failing call; that includes a label ingestion whose failure the caller then swallows, so the client has already seen a 500. The model keeps only the failure value each call returns.
- The unused open flags at main.go:285-292: they are computed and never passed on. `os.Create` always truncates, and the model does the same for every command, `append` included.
- Errors from `os.MkdirAll`, `os.Create`, `os.Stat` and `os.Open` are not modelled. The store is a map in which a write always succeeds, and only the copy can fail.
- File-system path handling: the store is keyed by the literal `parentDir/name` string. Aliases such as `a//b` or `a/./b` are different keys.
- `strings.ToLower` and `path.Ext` act on ASCII strings of `char`; Unicode case mapping is not modelled.
- Tar parsing is not modelled: the archive is given as its list of entries, each with a type flag, a name and a content stream. A non-EOF error from `t.Next()`, which dereferences a nil header, is not modelled either.
- Reads of the stored file are modelled as filling the 4096-byte buffer until the last one. Short reads from `os.File` would only change where the buffers split.
- The database is only an oracle that accepts or refuses a row. The FTS5 schema, the `MATCH` query and search ranking are outside the model.
- The derivation services are oracles: Tika extraction, the external thumbnailers and the Vision API label detection. Their own I/O and goroutine pipes are not modelled.
- GET handlers, directory listings, attribute files and redirects are not part of this model, and neither are startup, configuration and logging. `cmd/gosqlite` is not part of this model.
- Concurrent requests sharing the database are not modelled: each call is sequential and deterministic once the oracles are fixed.
- An append is re-indexed from the old size with parts numbered again from 0, as the code does (main.go:425). A continuation of the old part numbers is not modelled.
- Ingest.DocumentCascade: its own contract only bounds what the branch may change. The branch's steps and failure policy, including the early return when the extract's copy fails, are stated by `IngestFacts.DocumentExtractFails`, `IngestFacts.DocumentExtractIngested`, `IngestFacts.ExtractIngestFails`, `IngestFacts.ExtractIndexed`, `IngestFacts.ExtractIngested` and `IngestFacts.PdfThumbnailOnlyForPdf`.
- Ingest.ImageCascade: its own contract only bounds what the branch may change. The thumbnail and label steps are stated by `IngestFacts.ImageThumbnailFails`, `IngestFacts.ImageThumbnailFatal`, `IngestFacts.ImageThumbnailIngested`, `IngestFacts.LabelDetectionFatal`, `IngestFacts.LabelIngestFailureIgnored` and `IngestFacts.ImageLabelsIngested`, which gives the image call's exact world with the label service on.
- Ingest.ImageLabels: its own contract does not state the trace or the index. The exact world it leaves after a detection is stated by `IngestFacts.LabelsIngested`.
- Ingest.DeriveAndIngest: its own contract only bounds what one derive step may change. Its trace, the derived file, its outcome and its index are stated by `IngestFacts.DeriveSteps`, with the index from `IngestFacts.DerivedCallIndex`.

=== FILE: filetypes.dfy ===
/** The four type classifiers of the ingestion core: case-sensitive suffix
    tests against fixed extension tables (main.go:49-113), and the kind a
    name falls into. Every extension is a dot followed by dot-free,
    slash-free letters, so no two tables can both match one name, and the
    directory part of a path never affects its kind. */
module FileTypes {
  import opened Strings
  import opened GoPath

  /** Files the full-text index takes as they are. */
  const TextExtensions: seq<string> := [".txt", ".json", ".html"]
  /** Files the text-extraction service turns into text. */
  const DocExtensions: seq<string> := [".doc", ".ppt", ".xls", ".docx", ".pptx", ".xlsx", ".pdf", ".one"]
  const VideoExtensions: seq<string> := [".mp4"]
  const ImageExtensions: seq<string> := [".jpg", ".jpeg", ".png", ".gif"]

  /** The chain of `strings.HasSuffix` tests, tried in table order. */
  predicate EndsWithAny(name: string, table: seq<string>)
    decreases |table|
  {
    |table| > 0 && (HasSuffix(name, table[0]) || EndsWithAny(name, table[1..]))
  }

  predicate IsTextFile(name: string) { EndsWithAny(name, TextExtensions) }
  predicate IsDoc(name: string) { EndsWithAny(name, DocExtensions) }
  predicate IsVideo(name: string) { EndsWithAny(name, VideoExtensions) }
  predicate IsImage(name: string) { EndsWithAny(name, ImageExtensions) }

  datatype Kind = Document | Video | Image | Text | Opaque

  /** The kind a name falls into. Because the tables are exclusive, each
      kind holds exactly when its own classifier does, whatever order the
      tests are made in; a name no classifier accepts is opaque. */
  function Classify(name: string): (k: Kind)
    ensures k == Document <==> IsDoc(name)
    ensures k == Video <==> IsVideo(name)
    ensures k == Image <==> IsImage(name)
    ensures k == Text <==> IsTextFile(name)
    ensures k == Opaque <==> !IsDoc(name) && !IsVideo(name) && !IsImage(name) && !IsTextFile(name)
  {
    ClassifiersExclusive(name);
    if IsDoc(name) then Document
    else if IsVideo(name) then Video
    else if IsImage(name) then Image
    else if IsTextFile(name) then Text
    else Opaque
  }

  // ------------------------------------------------------------- tables

  predicate AllDotExtensions(table: seq<string>) {
    forall i :: 0 <= i < |table| ==> IsDotExtension(table[i])
  }

  lemma TablesAreDotExtensions()
    ensures AllDotExtensions(TextExtensions) && AllDotExtensions(DocExtensions)
    ensures AllDotExtensions(VideoExtensions) && AllDotExtensions(ImageExtensions)
  {
  }

  /** The document table is written in lower case. */
  lemma DocExtensionsLowercase()
    ensures forall i :: 0 <= i < |DocExtensions| ==> NoUpper(DocExtensions[i])
  {
  }

  /** A table test succeeds exactly when some entry is a suffix. */
  lemma {:induction false} EndsWithAnyWitness(name: string, table: seq<string>)
    ensures EndsWithAny(name, table) <==> exists i :: 0 <= i < |table| && HasSuffix(name, table[i])
    decreases |table|
  {
    if |table| > 0 {
      EndsWithAnyWitness(name, table[1..]);
      if exists i :: 0 <= i < |table| && HasSuffix(name, table[i]) {
        var i :| 0 <= i < |table| && HasSuffix(name, table[i]);
        if i > 0 { assert table[1..][i - 1] == table[i]; }
      }
      if exists j :: 0 <= j < |table[1..]| && HasSuffix(name, table[1..][j]) {
        var j :| 0 <= j < |table[1..]| && HasSuffix(name, table[1..][j]);
        assert table[j + 1] == table[1..][j];
      }
    }
  }

  lemma ShorterDotSuffixCoincides(name: string, a: string, b: string)
    requires IsDotExtension(a) && IsDotExtension(b)
    requires HasSuffix(name, a) && HasSuffix(name, b) && |a| <= |b|
    ensures a == b
  {
    SuffixesNest(name, a, b);
    assert b[|b| - |a|] == a[0];
  }

  /** Two dot extensions that are both suffixes of one name are equal. */
  lemma DotSuffixesCoincide(name: string, a: string, b: string)
    requires IsDotExtension(a) && IsDotExtension(b)
    requires HasSuffix(name, a) && HasSuffix(name, b)
    ensures a == b
  {
    if |a| <= |b| {
      ShorterDotSuffixCoincides(name, a, b);
    } else {
      ShorterDotSuffixCoincides(name, b, a);
    }
  }

  /** Two tables without a common entry never both match one name. */
  lemma TablesExclusive(name: string, t1: seq<string>, t2: seq<string>)
    requires AllDotExtensions(t1) && AllDotExtensions(t2)
    requires forall i, j :: 0 <= i < |t1| && 0 <= j < |t2| ==> t1[i] != t2[j]
    ensures !(EndsWithAny(name, t1) && EndsWithAny(name, t2))
  {
    EndsWithAnyWitness(name, t1);
    EndsWithAnyWitness(name, t2);
    if EndsWithAny(name, t1) && EndsWithAny(name, t2) {
      var i :| 0 <= i < |t1| && HasSuffix(name, t1[i]);
      var j :| 0 <= j < |t2| && HasSuffix(name, t2[j]);
      DotSuffixesCoincide(name, t1[i], t2[j]);
    }
  }

  /** At most one of the four classifiers holds for any name. */
  lemma ClassifiersExclusive(name: string)
    ensures (if IsDoc(name) then 1 else 0) + (if IsVideo(name) then 1 else 0)
          + (if IsImage(name) then 1 else 0) + (if IsTextFile(name) then 1 else 0) <= 1
  {
    DocumentsExclusive(name);
    MediaExclusive(name);
  }

  lemma DocumentsExclusive(name: string)
    ensures !(IsDoc(name) && IsVideo(name)) && !(IsDoc(name) && IsImage(name)) && !(IsDoc(name) && IsTextFile(name))
  {
    TablesAreDotExtensions();
    TablesExclusive(name, DocExtensions, VideoExtensions);
    TablesExclusive(name, DocExtensions, ImageExtensions);
    TablesExclusive(name, DocExtensions, TextExtensions);
  }

  lemma MediaExclusive(name: string)
    ensures !(IsVideo(name) && IsImage(name)) && !(IsVideo(name) && IsTextFile(name)) && !(IsImage(name) && IsTextFile(name))
  {
    TablesAreDotExtensions();
    TablesExclusive(name, VideoExtensions, ImageExtensions);
    TablesExclusive(name, VideoExtensions, TextExtensions);
    TablesExclusive(name, ImageExtensions, TextExtensions);
  }

  // --------------------------------------------------- directory prefix

  /** A slash-free extension sees only the part of a path after its last
      slash. */
  lemma SuffixIgnoresDirectory(dir: string, name: string, e: string)
    requires IsDotExtension(e)
    ensures HasSuffix(dir + "/" + name, e) <==> HasSuffix(name, e)
  {
    var full := dir + "/" + name;
    if |e| <= |name| {
      assert full == (dir + "/") + name;
      SuffixOfConcat(dir + "/", name, e);
    } else {
      var j := |e| - |name| - 1;
      assert full[|full| - |name| - 1] == '/';
      assert e[j] != '/';
    }
  }

  lemma {:induction false} EndsWithAnyIgnoresDirectory(dir: string, name: string, table: seq<string>)
    requires AllDotExtensions(table)
    ensures EndsWithAny(dir + "/" + name, table) <==> EndsWithAny(name, table)
    decreases |table|
  {
    if |table| > 0 {
      SuffixIgnoresDirectory(dir, name, table[0]);
      EndsWithAnyIgnoresDirectory(dir, name, table[1..]);
    }
  }

  /** The kind of `parentDir/name` is the kind of `name`. */
  lemma ClassifyIgnoresDirectory(dir: string, name: string)
    ensures Classify(dir + "/" + name) == Classify(name)
  {
    TablesAreDotExtensions();
    EndsWithAnyIgnoresDirectory(dir, name, TextExtensions);
    EndsWithAnyIgnoresDirectory(dir, name, DocExtensions);
    EndsWithAnyIgnoresDirectory(dir, name, VideoExtensions);
    EndsWithAnyIgnoresDirectory(dir, name, ImageExtensions);
  }

  // ------------------------------------------------------ derived names

  lemma {:induction false} EndsWithAnyOfConcat(a: string, b: string, table: seq<string>)
    requires ShorterThan(table, |b|)
    ensures EndsWithAny(a + b, table) <==> EndsWithAny(b, table)
    decreases |table|
  {
    if |table| > 0 {
      SuffixOfConcat(a, b, table[0]);
      EndsWithAnyOfConcat(a, b, table[1..]);
    }
  }

  predicate ShorterThan(table: seq<string>, n: nat) {
    forall i :: 0 <= i < |table| ==> |table[i]| <= n
  }

  lemma ExtensionsAtMostFive()
    ensures ShorterThan(TextExtensions, 5) && ShorterThan(DocExtensions, 5)
    ensures ShorterThan(VideoExtensions, 5) && ShorterThan(ImageExtensions, 5)
  {
  }

  /** The kind of a name that ends with a fixed tail is the kind of the
      tail, once the tail is at least as long as every extension. */
  lemma ClassifyOfTail(a: string, b: string)
    requires |b| >= 5
    ensures Classify(a + b) == Classify(b)
  {
    ExtensionsAtMostFive();
    EndsWithAnyOfConcat(a, b, TextExtensions);
    EndsWithAnyOfConcat(a, b, DocExtensions);
    EndsWithAnyOfConcat(a, b, VideoExtensions);
    EndsWithAnyOfConcat(a, b, ImageExtensions);
  }
}

=== FILE: gopath.dfy ===
/** The parts of Go's slash-separated `path` package (and `strings.ToLower`)
    that the ingestion core calls: `Ext` for the PDF test, and `Dir`, `Clean`
    and `Base` for placing archive entries. `Clean` is written as the lexical
    rules Go documents for it: collapse repeated slashes, drop `.` elements,
    let `..` cancel the element before it, and drop `..` at the root. */
module GoPath {
  import opened Strings

  /** A path element that `Clean` keeps as it is. */
  predicate Normal(s: string) {
    s != "" && s != "." && s != ".." && '/' !in s
  }

  predicate AllNormal(xs: seq<string>) {
    forall i :: 0 <= i < |xs| ==> Normal(xs[i])
  }

  // ---------------------------------------------------------------- ToLower

  function LowerChar(c: char): char {
    if 'A' <= c <= 'Z' then (c as int + 32) as char else c
  }

  /** `s` has no ASCII upper-case letter. */
  predicate NoUpper(s: string) {
    forall i :: 0 <= i < |s| ==> !('A' <= s[i] <= 'Z')
  }

  /** `strings.ToLower`, restricted to ASCII letters: the result has no
      upper-case letter, and only upper-case letters were changed. */
  function ToLower(s: string): (r: string)
    ensures |r| == |s|
    ensures NoUpper(r)
    ensures forall i :: 0 <= i < |s| && !('A' <= s[i] <= 'Z') ==> r[i] == s[i]
  {
    seq(|s|, i requires 0 <= i < |s| => LowerChar(s[i]))
  }

  lemma ToLowerKeepsLowercase(s: string)
    requires NoUpper(s)
    ensures ToLower(s) == s
  {
  }

  // -------------------------------------------------------------------- Ext

  /** `path.Ext`: the suffix starting at the last dot of the final element,
      or "" when the final element has no dot. The scan runs right to left
      over `p[..i]`. */
  function ExtBefore(p: string, i: nat): (r: string)
    requires i <= |p|
    ensures r == "" || (r[0] == '.' && HasSuffix(p, r))
    decreases i
  {
    if i == 0 then ""
    else if p[i - 1] == '/' then ""
    else if p[i - 1] == '.' then p[i - 1..]
    else ExtBefore(p, i - 1)
  }

  function Ext(p: string): (r: string)
    ensures r == "" || (r[0] == '.' && HasSuffix(p, r))
  {
    ExtBefore(p, |p|)
  }

  /** An extension shaped like `.xyz` (one leading dot, no other dot or
      slash). */
  predicate IsDotExtension(e: string) {
    |e| >= 2 && e[0] == '.' && forall i :: 1 <= i < |e| ==> e[i] != '.' && e[i] != '/'
  }

  lemma {:induction false} ExtBeforeSkips(p: string, e: string, i: nat)
    requires HasSuffix(p, e) && IsDotExtension(e)
    requires |p| - |e| < i <= |p|
    ensures ExtBefore(p, i) == e
    decreases i
  {
    if i - 1 == |p| - |e| {
      assert p[i - 1] == e[0];
    } else {
      assert p[i - 1] == e[i - 1 - (|p| - |e|)];
      ExtBeforeSkips(p, e, i - 1);
    }
  }

  /** A name ending in a dot extension has exactly that extension. */
  lemma ExtOfDotSuffix(p: string, e: string)
    requires HasSuffix(p, e) && IsDotExtension(e)
    ensures Ext(p) == e
  {
    ExtBeforeSkips(p, e, |p|);
  }

  // ------------------------------------------------------------------ Clean

  /** One step of `Clean` over the elements of a path, with the elements
      kept so far in `stack`. */
  function Resolve(stack: seq<string>, segs: seq<string>, rooted: bool): seq<string>
    decreases |segs|
  {
    if |segs| == 0 then stack
    else
      var s := segs[0];
      if s == "" || s == "." then Resolve(stack, segs[1..], rooted)
      else if s == ".." then
        if |stack| > 0 && stack[|stack| - 1] != ".." then Resolve(stack[..|stack| - 1], segs[1..], rooted)
        else if rooted then Resolve(stack, segs[1..], rooted)
        else Resolve(stack + [".."], segs[1..], rooted)
      else Resolve(stack + [s], segs[1..], rooted)
  }

  /** `path.Clean`. */
  function Clean(p: string): string {
    if p == "" then "."
    else
      var rooted := p[0] == '/';
      var segs := Resolve([], Split(p, '/'), rooted);
      if rooted then "/" + Join(segs, '/')
      else if segs == [] then "."
      else Join(segs, '/')
  }

  /** `Resolve` runs over its elements left to right. */
  lemma {:induction false} ResolveAppend(stack: seq<string>, xs: seq<string>, ys: seq<string>, rooted: bool)
    ensures Resolve(stack, xs + ys, rooted) == Resolve(Resolve(stack, xs, rooted), ys, rooted)
    decreases |xs|
  {
    if |xs| > 0 {
      assert (xs + ys)[0] == xs[0];
      assert (xs + ys)[1..] == xs[1..] + ys;
      var s := xs[0];
      if s == "" || s == "." {
        ResolveAppend(stack, xs[1..], ys, rooted);
      } else if s == ".." {
        if |stack| > 0 && stack[|stack| - 1] != ".." {
          ResolveAppend(stack[..|stack| - 1], xs[1..], ys, rooted);
        } else if rooted {
          ResolveAppend(stack, xs[1..], ys, rooted);
        } else {
          ResolveAppend(stack + [".."], xs[1..], ys, rooted);
        }
      } else {
        ResolveAppend(stack + [s], xs[1..], ys, rooted);
      }
    } else {
      assert xs + ys == ys;
    }
  }

  /** Normal elements are kept in order. */
  lemma {:induction false} ResolveNormal(stack: seq<string>, xs: seq<string>, rooted: bool)
    requires AllNormal(xs)
    ensures Resolve(stack, xs, rooted) == stack + xs
    decreases |xs|
  {
    if |xs| > 0 {
      assert Normal(xs[0]);
      ResolveNormal(stack + [xs[0]], xs[1..], rooted);
      assert stack + [xs[0]] + xs[1..] == stack + xs;
    }
  }

  /** Cleaning a rooted path of normal elements with a trailing slash
      removes only the trailing slash. */
  lemma CleanRootedNormal(x: string, q: string, segs: seq<string>)
    requires |segs| >= 1 && AllNormal(segs)
    requires DirPart(x) == q
    requires Split(q, '/') == [""] + segs + [""]
    ensures Dir(x) == Join([""] + segs, '/')
  {
    assert q == Join([""] + segs + [""], '/');
    JoinAppend([""], segs + [""], '/');
    assert [""] + segs + [""] == [""] + (segs + [""]);
    assert q[0] == '/';
    ResolveAppend([], [""], segs + [""], true);
    ResolveAppend([], segs, [""], true);
    ResolveNormal([], segs, true);
    assert [] + segs == segs;
    JoinAppend([""], segs, '/');
  }

  // ------------------------------------------------------------ Dir, Base

  /** The directory half of `path.Split`: everything up to and including
      the last slash, or "" when there is none. */
  function DirPart(p: string): (r: string)
    ensures r <= p
    decreases |p|
  {
    if |p| == 0 then ""
    else if p[|p| - 1] == '/' then p
    else DirPart(p[..|p| - 1])
  }

  lemma {:induction false} DirPartSkipsWord(x: string, w: string)
    requires '/' !in w
    requires |x| > 0 && x[|x| - 1] == '/'
    ensures DirPart(x + w) == x
    decreases |w|
  {
    if |w| > 0 {
      assert (x + w)[|x + w| - 1] == w[|w| - 1];
      assert (x + w)[..|x + w| - 1] == x + w[..|w| - 1];
      DirPartSkipsWord(x, w[..|w| - 1]);
    } else {
      assert x + w == x;
    }
  }

  /** `path.Dir`: `Clean` of everything up to the last slash. */
  function Dir(p: string): string {
    Clean(DirPart(p))
  }

  function StripTrailingSlashes(p: string): (r: string)
    ensures r <= p
    decreases |p|
  {
    if |p| > 0 && p[|p| - 1] == '/' then StripTrailingSlashes(p[..|p| - 1]) else p
  }

  /** `path.Base`: the last element after trailing slashes are removed;
      "." for the empty path and "/" for a path of slashes only. */
  function Base(p: string): string {
    if p == "" then "."
    else
      var q := StripTrailingSlashes(p);
      if q == "" then "/"
      else
        var parts := Split(q, '/');
        parts[|parts| - 1]
  }

  /** The base of a path whose last element is non-empty is that element. */
  lemma BaseIsLastElement(p: string)
    requires Split(p, '/')[|Split(p, '/')| - 1] != ""
    ensures Base(p) == Split(p, '/')[|Split(p, '/')| - 1]
  {
    var parts := Split(p, '/');
    var last := parts[|parts| - 1];
    LastCharIsNotSlash(p);
    assert StripTrailingSlashes(p) == p;
  }

  /** A path whose last element is non-empty ends in a character other
      than a slash. */
  lemma LastCharIsNotSlash(p: string)
    requires Split(p, '/')[|Split(p, '/')| - 1] != ""
    ensures |p| > 0 && p[|p| - 1] != '/'
  {
    var parts := Split(p, '/');
    var last := parts[|parts| - 1];
    if |parts| >= 2 {
      JoinDropLast(parts, '/');
      LastOfConcat(Join(parts[..|parts| - 1], '/') + ['/'], last);
    } else {
      assert p == last;
    }
    assert '/' !in last;
  }

  lemma LastOfConcat(a: string, b: string)
    requires |b| > 0
    ensures (a + b)[|a + b| - 1] == b[|b| - 1]
  {
  }

  lemma SplitTrailingSlash(x: string)
    ensures Split(x + "/", '/') == Split(x, '/') + [""]
  {
    SplitAround(x, "", '/');
    assert x + [('/')] + "" == x + "/";
  }

  lemma SplitThenElements(dest: string, mids: seq<string>)
    requires |mids| >= 1 && AllNormal(mids)
    ensures Split(dest + "/" + Join(mids, '/'), '/') == Split(dest, '/') + mids
  {
    SplitAround(dest, Join(mids, '/'), '/');
    assert dest + [('/')] + Join(mids, '/') == dest + "/" + Join(mids, '/');
    assert forall i :: 0 <= i < |mids| ==> '/' !in mids[i];
    SplitJoin(mids, '/');
  }

  /** The path after the last slash is cut off by `DirPart`, and what
      remains splits into the destination's elements, `mids` and a trailing
      empty element. */
  lemma DirPartOfRootedPath(dest: string, segs: seq<string>, mids: seq<string>, f: string) returns (q: string)
    requires Split(dest, '/') == [""] + segs
    requires AllNormal(mids) && Normal(f)
    ensures DirPart(dest + "/" + Join(mids + [f], '/')) == q
    ensures Split(q, '/') == [""] + (segs + mids) + [""]
  {
    if |mids| == 0 {
      q := DirPartOfFileInRoot(dest, segs, f);
      assert mids + [f] == [f];
      assert segs + mids == segs;
    } else {
      q := DirPartOfNestedFile(dest, segs, mids, f);
    }
  }

  lemma DirPartOfFileInRoot(dest: string, segs: seq<string>, f: string) returns (q: string)
    requires Split(dest, '/') == [""] + segs
    requires Normal(f)
    ensures DirPart(dest + "/" + Join([f], '/')) == q
    ensures Split(q, '/') == [""] + segs + [""]
  {
    q := dest + "/";
    assert dest + "/" + Join([f], '/') == q + f;
    SplitTrailingSlash(dest);
    DirPartSkipsWord(q, f);
  }

  lemma DirPartOfNestedFile(dest: string, segs: seq<string>, mids: seq<string>, f: string) returns (q: string)
    requires Split(dest, '/') == [""] + segs
    requires |mids| >= 1 && AllNormal(mids) && Normal(f)
    ensures DirPart(dest + "/" + Join(mids + [f], '/')) == q
    ensures Split(q, '/') == [""] + (segs + mids) + [""]
  {
    q := NestedDirectory(dest, segs, mids);
    NestedFileName(dest, mids, f);
    DirPartSkipsWord(q, f);
  }

  /** `dest/m1/.../mk/` splits into the elements of `dest`, the `mi` and a
      trailing empty element. */
  lemma NestedDirectory(dest: string, segs: seq<string>, mids: seq<string>) returns (q: string)
    requires Split(dest, '/') == [""] + segs
    requires |mids| >= 1 && AllNormal(mids)
    ensures q == dest + "/" + Join(mids, '/') + "/"
    ensures Split(q, '/') == [""] + (segs + mids) + [""]
  {
    var d := dest + "/" + Join(mids, '/');
    q := d + "/";
    SplitThenElements(dest, mids);
    var elems := Split(d, '/');
    assert elems == [""] + (segs + mids);
    SplitTrailingSlash(d);
    assert Split(q, '/') == elems + [""];
  }

  lemma NestedFileName(dest: string, mids: seq<string>, f: string)
    requires |mids| >= 1
    ensures dest + "/" + Join(mids + [f], '/') == (dest + "/" + Join(mids, '/') + "/") + f
  {
    JoinAppend(mids, [f], '/');
  }

  lemma AllNormalAppend(xs: seq<string>, ys: seq<string>)
    requires AllNormal(xs) && AllNormal(ys)
    ensures AllNormal(xs + ys)
  {
    forall i | 0 <= i < |xs + ys| ensures Normal((xs + ys)[i]) {
      if i < |xs| { assert (xs + ys)[i] == xs[i]; } else { assert (xs + ys)[i] == ys[i - |xs|]; }
    }
  }

  lemma DirPartOfRootedPathWith(dest: string, segs: seq<string>, rest: seq<string>) returns (q: string)
    requires Split(dest, '/') == [""] + segs
    requires |rest| >= 1 && AllNormal(rest)
    ensures DirPart(dest + "/" + Join(rest, '/')) == q
    ensures Split(q, '/') == [""] + (segs + rest[..|rest| - 1]) + [""]
  {
    var mids, f := rest[..|rest| - 1], rest[|rest| - 1];
    assert rest == mids + [f];
    assert AllNormal(mids);
    assert Normal(f);
    q := DirPartOfRootedPath(dest, segs, mids, f);
  }

  /** Where `Dir` puts a rooted destination followed by normal elements:
      only the final element is dropped. */
  lemma DirOfRootedPath(dest: string, segs: seq<string>, rest: seq<string>)
    requires |segs| >= 1 && AllNormal(segs)
    requires Split(dest, '/') == [""] + segs
    requires |rest| >= 1 && AllNormal(rest)
    ensures Dir(dest + "/" + Join(rest, '/')) == Join([""] + (segs + rest[..|rest| - 1]), '/')
  {
    var mids := rest[..|rest| - 1];
    assert AllNormal(mids);
    var q := DirPartOfRootedPathWith(dest, segs, rest);
    AllNormalAppend(segs, mids);
    CleanRootedNormal(dest + "/" + Join(rest, '/'), q, segs + mids);
  }
}

=== FILE: ingest.dfy ===
/** The recursive ingestion state machine, `postFileHandler`
    (main.go:270-440). One call writes a stream to `parentDir/name`, and when
    `cascade` is set, derives further artifacts from it by calling external
    services and feeding their output back into itself:

    - a document gets a text extract, `name--extract.txt`, ingested with the
      caller's cascade flag so that it is indexed, and for a `.pdf` also a
      thumbnail, `name--thumbnail.png`, ingested with cascade off;
    - a video or an image gets a thumbnail, ingested with cascade off, and an
      image also gets labels, `name--labels.json`, when the label service is
      switched on;
    - a text file is cut into 4096-byte chunks that go into the index.

    Every failure aborts the call except a failure ingesting the labels and
    a refused index row, which are only logged.

    The file system is a map from path to bytes; the services, the database's
    acceptance of a row and the label switch are parameters; the trace
    records each call entered (with its recursion depth) and each service
    invoked, so that contracts can say what happened and in which order. */
module Ingest {
  import opened Strings
  import opened GoPath
  import opened FileTypes
  import opened TextIndex
  import opened Wrappers

  /** An input as `io.Copy` consumes it: the bytes delivered, and whether a
      read error follows them. */
  datatype Stream = Stream(bytes: seq<byte>, readFails: bool)

  /** The arguments of one `postFileHandler` call. */
  datatype Call = Call(
    command: string,
    parentDir: string,
    name: string,
    originalParentDir: string,
    originalName: string,
    cascade: bool)

  /** `fmt.Sprintf("%s/%s", parentDir, name)`. */
  function FullName(c: Call): string {
    c.parentDir + "/" + c.name
  }

  datatype Service = Extract | PdfThumbnail | VideoThumbnail | ImageThumbnail | DetectLabels

  /** An external derivation service, given the written file's path and
      bytes: its output stream, or an error. */
  type Oracle = (string, seq<byte>) -> Result<Stream>

  /** Everything the handler consults that this model does not define. */
  datatype Env = Env(
    extract: Oracle,
    pdfThumbnail: Oracle,
    videoThumbnail: Oracle,
    imageThumbnail: Oracle,
    detectLabels: Oracle,
    accepts: IndexRecord -> bool,
    useVisionAPI: bool)

  function Invoke(env: Env, s: Service, path: string, content: seq<byte>): Result<Stream> {
    match s
    case Extract => env.extract(path, content)
    case PdfThumbnail => env.pdfThumbnail(path, content)
    case VideoThumbnail => env.videoThumbnail(path, content)
    case ImageThumbnail => env.imageThumbnail(path, content)
    case DetectLabels => env.detectLabels(path, content)
  }

  datatype Event =
    | Entered(call: Call, depth: nat)
    | Invoked(service: Service, path: string)

  /** Why a call failed, with the path and stage, and for a derived
      artifact the failure of its own ingestion. */
  datatype Failure =
    | WriteFailed(path: string)
    | ServiceFailed(service: Service, path: string)
    | DerivedIngestFailed(service: Service, path: string, cause: Failure)

  datatype Outcome = Ok | Fail(failure: Failure)

  /** The artifact store, the full-text index and the trace. */
  datatype World = World(store: map<string, seq<byte>>, index: seq<IndexRecord>, trace: seq<Event>)

  datatype Step = Step(world: World, outcome: Outcome)

  const ExtractSuffix: string := "--extract.txt"
  const ThumbnailSuffix: string := "--thumbnail.png"
  const LabelsSuffix: string := "--labels.json"

  /** The call that ingests an artifact derived from `c`'s file. */
  function Derived(c: Call, suffix: string, cascade: bool): Call {
    c.(name := c.name + suffix, cascade := cascade)
  }

  /** `c` calls a derivation service: cascade is on and the file is a
      document, video or image. */
  predicate Derives(c: Call) {
    c.cascade && (IsDoc(FullName(c)) || IsVideo(FullName(c)) || IsImage(FullName(c)))
  }

  /** The recursion measure: only a deriving call recurses, and never into
      another deriving call. */
  function Rank(c: Call): nat {
    if Derives(c) then 1 else 0
  }

  /** The size `os.Stat` reports before the write, 0 for a missing file. */
  function ExistingSize(store: map<string, seq<byte>>, path: string): nat {
    if path in store then |store[path]| else 0
  }

  /** The columns of the rows indexed for `c`: directories get a trailing
      slash. */
  function TargetOf(c: Call): Target {
    Target(c.command, c.parentDir + "/", c.name, c.originalParentDir + "/", c.originalName)
  }

  /** The world right after the write step: the file holds the delivered
      bytes (`os.Create` truncates, whatever the command), and the call is
      on the trace. */
  function Written(w: World, stream: Stream, c: Call, depth: nat): World {
    World(w.store[FullName(c) := stream.bytes], w.index, w.trace + [Entered(c, depth)])
  }

  // ------------------------------------------------------------ contract

  /** The services a call may invoke on its own file: extraction for a
      document, a PDF thumbnail for a document whose lower-cased extension
      is `.pdf`, a video thumbnail for a video, an image thumbnail for an
      image, and label detection for an image when the label service is on. */
  predicate Serves(env: Env, s: Service, c: Call) {
    var full := FullName(c);
    match s
    case Extract => IsDoc(full)
    case PdfThumbnail => IsDoc(full) && ToLower(Ext(full)) == ".pdf"
    case VideoThumbnail => IsVideo(full)
    case ImageThumbnail => IsImage(full)
    case DetectLabels => IsImage(full) && env.useVisionAPI
  }

  /** An index row that ingesting `c` may produce: same verb, directory and
      origin, and a name that extends `c`'s. */
  ghost predicate RowOf(rec: IndexRecord, c: Call) {
    && rec.command == c.command
    && rec.path == c.parentDir + "/"
    && c.name <= rec.name
    && rec.originalPath == c.originalParentDir + "/"
    && rec.originalName == c.originalName
  }

  /** A trace event after `c`'s own entry: a service fit for `c`'s kind
      invoked on `c`'s file, or a nested call one level down that derives
      nothing and keeps `c`'s verb, directory and origin. Only a deriving
      call has such events. */
  ghost predicate NestedEvent(env: Env, e: Event, c: Call, depth: nat) {
    Derives(c) &&
    match e
    case Invoked(s, p) => p == FullName(c) && Serves(env, s, c)
    case Entered(c', d) =>
      && d == depth + 1
      && !Derives(c')
      && c'.command == c.command
      && c'.parentDir == c.parentDir
      && c.name < c'.name
      && c'.originalParentDir == c.originalParentDir
      && c'.originalName == c.originalName
  }

  /** Only paths that strictly extend `p` differ between the two stores. */
  ghost predicate Confined(s: map<string, seq<byte>>, s': map<string, seq<byte>>, p: string) {
    forall k :: !(p < k) ==> (k in s <==> k in s') && (k in s ==> s[k] == s'[k])
  }

  /** What ingesting `c` after its write step can change: the trace and the
      index only grow, by events and rows that belong to `c` (no events at
      all for a call that derives nothing), and the store only below `c`'s
      path. */
  ghost predicate Extends(env: Env, w: World, w': World, c: Call, depth: nat) {
    && w.trace <= w'.trace
    && (!Derives(c) ==> |w'.trace| == |w.trace|)
    && (forall i :: |w.trace| <= i < |w'.trace| ==> NestedEvent(env, w'.trace[i], c, depth))
    && w.index <= w'.index
    && (forall i :: |w.index| <= i < |w'.index| ==> RowOf(w'.index[i], c))
    && Confined(w.store, w'.store, FullName(c))
  }

  /** Recursion stops one level down, so a derived artifact's ingestion can
      fail only in its copy. */
  predicate OneLevel(f: Failure) {
    f.DerivedIngestFailed? ==> f.cause.WriteFailed?
  }

  // ------------------------------------------------------------- handler

  /** `postFileHandler` (main.go:270-440). */
  function PostFile(env: Env, w: World, stream: Stream, c: Call, depth: nat): (r: Step)
    ensures |r.world.trace| > |w.trace| && r.world.trace[|w.trace|] == Entered(c, depth)
    ensures Extends(env, Written(w, stream, c, depth), r.world, c, depth)
    ensures FullName(c) in r.world.store && r.world.store[FullName(c)] == stream.bytes
    ensures stream.readFails ==> r.outcome == Fail(WriteFailed(FullName(c)))
    ensures !Derives(c) ==> (r.outcome.Fail? <==> stream.readFails)
    ensures r.outcome.Fail? ==> OneLevel(r.outcome.failure)
    decreases Rank(c), 2
  {
    var full := FullName(c);
    var existingSize := ExistingSize(w.store, full);
    var written := Written(w, stream, c, depth);
    if stream.readFails then
      NothingMoreExtends(env, written, c, depth);
      Step(written, Fail(WriteFailed(full)))
    else if IsDoc(full) && c.cascade then
      DocumentCascade(env, written, c, depth, stream.bytes)
    else if IsVideo(full) && c.cascade then
      DeriveAndIngest(env, written, c, depth, VideoThumbnail, stream.bytes, ThumbnailSuffix, false)
    else if IsImage(full) && c.cascade then
      ImageCascade(env, written, c, depth, stream.bytes)
    else if IsTextFile(full) && c.cascade then
      var rows := Accepted(env.accepts, Records(TargetOf(c), Chunks(IndexedBytes(stream.bytes, existingSize))));
      TextRowsBelongToCall(env.accepts, c, Chunks(IndexedBytes(stream.bytes, existingSize)));
      IndexingExtends(env, written, c, depth, rows);
      Step(written.(index := IndexText(env.accepts, w.index, TargetOf(c), stream.bytes, existingSize)), Outcome.Ok)
    else
      NothingMoreExtends(env, written, c, depth);
      Step(written, Outcome.Ok)
  }

  /** The document branch (main.go:323-358): extract, then a thumbnail for
      a PDF. */
  function DocumentCascade(env: Env, w: World, c: Call, depth: nat, content: seq<byte>): (r: Step)
    requires c.cascade && IsDoc(FullName(c))
    ensures Extends(env, w, r.world, c, depth)
    ensures r.outcome.Fail? ==> OneLevel(r.outcome.failure)
    decreases Rank(c), 1
  {
    var e := DeriveAndIngest(env, w, c, depth, Extract, content, ExtractSuffix, c.cascade);
    if e.outcome.Fail? then e
    else if ToLower(Ext(FullName(c))) == ".pdf" then
      var t := DeriveAndIngest(env, e.world, c, depth, PdfThumbnail, content, ThumbnailSuffix, false);
      ExtendsTrans(env, w, e.world, t.world, c, depth);
      t
    else e
  }

  /** The image branch (main.go:373-401): a thumbnail, then labels when the
      label service is on. A failure to detect labels is fatal; a failure
      to ingest them is logged and the call still succeeds. */
  function ImageCascade(env: Env, w: World, c: Call, depth: nat, content: seq<byte>): (r: Step)
    requires c.cascade && IsImage(FullName(c))
    ensures Extends(env, w, r.world, c, depth)
    ensures r.outcome.Fail? ==> OneLevel(r.outcome.failure)
    decreases Rank(c), 1
  {
    var t := DeriveAndIngest(env, w, c, depth, ImageThumbnail, content, ThumbnailSuffix, false);
    if t.outcome.Fail? then t
    else if env.useVisionAPI then
      var l := ImageLabels(env, t.world, c, depth, content);
      ExtendsTrans(env, w, t.world, l.world, c, depth);
      l
    else t
  }

  /** Label detection for an image (main.go:387-398): an error is fatal;
      the labels are ingested as `name--labels.json` with the caller's
      cascade flag, and a failure there is only logged. */
  function ImageLabels(env: Env, w: World, c: Call, depth: nat, content: seq<byte>): (r: Step)
    requires c.cascade && IsImage(FullName(c)) && env.useVisionAPI
    ensures Extends(env, w, r.world, c, depth)
    ensures env.detectLabels(FullName(c), content).Err? ==> r.outcome == Fail(ServiceFailed(DetectLabels, FullName(c)))
    ensures env.detectLabels(FullName(c), content).Ok? ==>
      && r.outcome == Outcome.Ok
      && FullName(c) + LabelsSuffix in r.world.store
      && r.world.store[FullName(c) + LabelsSuffix] == env.detectLabels(FullName(c), content).value.bytes
    ensures r.outcome.Fail? ==> OneLevel(r.outcome.failure)
    decreases Rank(c), 0
  {
    var full := FullName(c);
    var w1 := w.(trace := w.trace + [Invoked(DetectLabels, full)]);
    match env.detectLabels(full, content)
    case Err(_) =>
      InvokeExtends(env, w, c, depth, DetectLabels);
      Step(w1, Fail(ServiceFailed(DetectLabels, full)))
    case Ok(labels) =>
      var child := Derived(c, LabelsSuffix, c.cascade);
      DerivedCallIsLeaf(c, LabelsSuffix, c.cascade);
      var s := PostFile(env, w1, labels, child, depth + 1);
      assert FullName(child) == FullName(c) + LabelsSuffix;
      ChildExtends(env, w, w1, s.world, c, child, depth, DetectLabels, labels);
      Step(s.world, Outcome.Ok)
  }

  /** Invoke service `s` on `c`'s file and ingest its output as the derived
      artifact `name + suffix`; a service error or a failed ingestion of
      the output fails the call. */
  function DeriveAndIngest(
    env: Env, w: World, c: Call, depth: nat, s: Service, content: seq<byte>,
    suffix: string, cascade: bool): (r: Step)
    requires Derives(c) && Serves(env, s, c)
    requires suffix == ExtractSuffix || suffix == ThumbnailSuffix || suffix == LabelsSuffix
    requires suffix == ThumbnailSuffix ==> !cascade
    ensures Extends(env, w, r.world, c, depth)
    ensures r.outcome.Fail? ==> OneLevel(r.outcome.failure)
    decreases Rank(c), 0
  {
    var full := FullName(c);
    var w1 := w.(trace := w.trace + [Invoked(s, full)]);
    match Invoke(env, s, full, content)
    case Err(_) =>
      Step(w1, Fail(ServiceFailed(s, full)))
    case Ok(out) =>
      var child := Derived(c, suffix, cascade);
      DerivedCallIsLeaf(c, suffix, cascade);
      var sub := PostFile(env, w1, out, child, depth + 1);
      ChildExtends(env, w, w1, sub.world, c, child, depth, s, out);
      if sub.outcome.Fail? then Step(sub.world, Fail(DerivedIngestFailed(s, full, sub.outcome.failure)))
      else Step(sub.world, Outcome.Ok)
  }

  // ------------------------------------------------ lemmas for the contract

  lemma PrefixTrans<T>(a: seq<T>, b: seq<T>, c: seq<T>)
    requires a <= b && b <= c
    ensures a <= c
  {
    assert c[..|b|][..|a|] == c[..|a|];
  }

  lemma ExtendsTrans(env: Env, w: World, w1: World, w2: World, c: Call, depth: nat)
    requires Extends(env, w, w1, c, depth) && Extends(env, w1, w2, c, depth)
    ensures Extends(env, w, w2, c, depth)
  {
    PrefixTrans(w.trace, w1.trace, w2.trace);
    PrefixTrans(w.index, w1.index, w2.index);
    assert forall i :: |w1.trace| <= i < |w2.trace| ==> NestedEvent(env, w2.trace[i], c, depth);
    assert forall i :: |w.trace| <= i < |w1.trace| ==> w2.trace[i] == w1.trace[i];
    assert forall i :: |w.index| <= i < |w1.index| ==> w2.index[i] == w1.index[i];
  }

  lemma NothingMoreExtends(env: Env, w: World, c: Call, depth: nat)
    ensures Extends(env, w, w, c, depth)
  {
  }

  /** Inserting rows that belong to `c` is a change ingesting `c` may make. */
  lemma IndexingExtends(env: Env, w: World, c: Call, depth: nat, rows: seq<IndexRecord>)
    requires forall x :: x in rows ==> RowOf(x, c)
    ensures Extends(env, w, w.(index := w.index + rows), c, depth)
  {
    var w' := w.(index := w.index + rows);
    forall i | |w.index| <= i < |w'.index| ensures RowOf(w'.index[i], c) {
      assert w'.index[i] == rows[i - |w.index|];
    }
  }

  /** Tracing a service fit for `c` on `c`'s file is a change ingesting
      `c` may make. */
  lemma InvokeExtends(env: Env, w: World, c: Call, depth: nat, s: Service)
    requires Derives(c) && Serves(env, s, c)
    ensures Extends(env, w, w.(trace := w.trace + [Invoked(s, FullName(c))]), c, depth)
  {
  }

  /** A derived file name ends in `.txt`, `.png` or `.json`, so its call
      derives nothing further. */
  lemma DerivedCallIsLeaf(c: Call, suffix: string, cascade: bool)
    requires suffix == ExtractSuffix || suffix == ThumbnailSuffix || suffix == LabelsSuffix
    requires suffix == ThumbnailSuffix ==> !cascade
    ensures FullName(Derived(c, suffix, cascade)) == FullName(c) + suffix
    ensures FullName(c) < FullName(Derived(c, suffix, cascade))
    ensures c.name < Derived(c, suffix, cascade).name
    ensures !Derives(Derived(c, suffix, cascade))
  {
    var child := Derived(c, suffix, cascade);
    assert FullName(child) == FullName(c) + suffix;
    assert FullName(child)[..|FullName(c)|] == FullName(c);
    assert child.name[..|c.name|] == c.name;
    if suffix == ExtractSuffix {
      ExtractNameIsText(FullName(c));
      ClassifiersExclusive(FullName(child));
    } else if suffix == LabelsSuffix {
      LabelsNameIsText(FullName(c));
      ClassifiersExclusive(FullName(child));
    }
  }

  lemma ExtractNameIsText(x: string)
    ensures IsTextFile(x + ExtractSuffix)
  {
    assert HasSuffix(ExtractSuffix, TextExtensions[0]);
    SuffixOfConcat(x, ExtractSuffix, TextExtensions[0]);
  }

  lemma LabelsNameIsText(x: string)
    ensures IsTextFile(x + LabelsSuffix)
  {
    assert HasSuffix(LabelsSuffix, TextExtensions[1]);
    SuffixOfConcat(x, LabelsSuffix, TextExtensions[1]);
  }

  /** Every row a text pass for `c` inserts belongs to `c`. */
  lemma TextRowsBelongToCall(accepts: IndexRecord -> bool, c: Call, chunks: seq<seq<byte>>)
    ensures forall x :: x in Accepted(accepts, Records(TargetOf(c), chunks)) ==>
      && x.command == c.command && x.path == c.parentDir + "/" && x.name == c.name
      && x.originalPath == c.originalParentDir + "/" && x.originalName == c.originalName
    ensures forall x :: x in Accepted(accepts, Records(TargetOf(c), chunks)) ==> RowOf(x, c)
  {
    AcceptedMembers(accepts, Records(TargetOf(c), chunks));
  }

  /** Ingesting one derived artifact keeps within what `c` may change. */
  lemma ChildExtends(
    env: Env, w: World, w1: World, w2: World, c: Call, child: Call, depth: nat, s: Service, out: Stream)
    requires Derives(c) && !Derives(child) && Serves(env, s, c)
    requires FullName(c) < FullName(child) && c.name < child.name
    requires child.command == c.command && child.parentDir == c.parentDir
    requires child.originalParentDir == c.originalParentDir && child.originalName == c.originalName
    requires w1 == w.(trace := w.trace + [Invoked(s, FullName(c))])
    requires |w2.trace| > |w1.trace| && w2.trace[|w1.trace|] == Entered(child, depth + 1)
    requires Extends(env, Written(w1, out, child, depth + 1), w2, child, depth + 1)
    ensures Extends(env, w, w2, c, depth)
  {
    var wc := Written(w1, out, child, depth + 1);
    PrefixTrans(w.trace, wc.trace, w2.trace);
    assert w2.trace == w.trace + [Invoked(s, FullName(c)), Entered(child, depth + 1)];
    forall i | |w.index| <= i < |w2.index| ensures RowOf(w2.index[i], c) {
      assert RowOf(w2.index[i], child);
      PrefixTrans(c.name, child.name, w2.index[i].name);
    }
    forall k | !(FullName(c) < k)
      ensures (k in w.store <==> k in w2.store) && (k in w.store ==> w.store[k] == w2.store[k])
    {
      if FullName(child) < k {
        PrefixTrans(FullName(c), FullName(child), k);
      }
    }
  }
}

=== FILE: ingest_facts.dfy ===
/** What one `postFileHandler` call does on each branch, stated against the
    inputs: the copy error, the plain write, the text index, the document,
    video and image cascades, and which failures abort the call. */
module IngestFacts {
  import opened Strings
  import opened GoPath
  import opened FileTypes
  import opened TextIndex
  import opened Wrappers
  import opened Ingest

  /** A read error during the copy (main.go:314-320) ends the call right
      after the write: the bytes delivered before the error stay in the
      file, and nothing is derived or indexed. */
  lemma CopyErrorStopsEarly(env: Env, w: World, stream: Stream, c: Call, depth: nat)
    requires stream.readFails
    ensures var r := PostFile(env, w, stream, c, depth);
      && r.outcome == Fail(WriteFailed(FullName(c)))
      && r.world.store == w.store[FullName(c) := stream.bytes]
      && r.world.index == w.index
      && r.world.trace == w.trace + [Entered(c, depth)]
  {
  }

  /** With cascade off, or for a file no classifier accepts, the call only
      writes its file (main.go:323, 360, 373, 403 all test the cascade flag). */
  lemma PlainFileOnlyWritten(env: Env, w: World, stream: Stream, c: Call, depth: nat)
    requires !stream.readFails
    requires !c.cascade || Classify(FullName(c)) == Opaque
    ensures var r := PostFile(env, w, stream, c, depth);
      && r.outcome == Outcome.Ok
      && r.world.store == w.store[FullName(c) := stream.bytes]
      && r.world.index == w.index
      && r.world.trace == w.trace + [Entered(c, depth)]
  {
  }

  /** A text file with cascade on is indexed (main.go:403-437) from the size
      the file had before the write, and nothing else happens. */
  lemma TextFileIndexed(env: Env, w: World, stream: Stream, c: Call, depth: nat)
    requires !stream.readFails && c.cascade && IsTextFile(FullName(c))
    ensures var r := PostFile(env, w, stream, c, depth);
      && r.outcome == Outcome.Ok
      && r.world.store == w.store[FullName(c) := stream.bytes]
      && r.world.index == IndexText(env.accepts, w.index, TargetOf(c), stream.bytes, ExistingSize(w.store, FullName(c)))
      && r.world.trace == w.trace + [Entered(c, depth)]
  {
    ClassifiersExclusive(FullName(c));
  }

  /** Posting a text file again with bytes appended indexes only the
      appended bytes, in chunks numbered again from part 0; the rows of the
      earlier post stay as they were. */
  lemma AppendIndexesOnlyNewBytes(
    env: Env, w: World, c: Call, depth: nat, before: seq<byte>, appended: seq<byte>)
    requires c.cascade && IsTextFile(FullName(c))
    requires FullName(c) in w.store && w.store[FullName(c)] == before
    requires forall rec :: env.accepts(rec)
    ensures var r := PostFile(env, w, Stream(before + appended, false), c, depth);
      && r.world.index[..|w.index|] == w.index
      && r.world.index[|w.index|..] == Records(TargetOf(c), Chunks(appended))
  {
    var content := before + appended;
    TextFileIndexed(env, w, Stream(content, false), c, depth);
    assert content[|before|..] == appended;
    AcceptedAll(env.accepts, Records(TargetOf(c), Chunks(appended)));
  }

  // ------------------------------------------------------ branch choice

  /** A copied document with cascade on takes the document branch. */
  lemma DocumentBranch(env: Env, w: World, stream: Stream, c: Call, depth: nat)
    requires !stream.readFails && c.cascade && IsDoc(FullName(c))
    ensures PostFile(env, w, stream, c, depth) == DocumentCascade(env, Written(w, stream, c, depth), c, depth, stream.bytes)
  {
  }

  /** A copied video with cascade on takes the video branch. */
  lemma VideoBranch(env: Env, w: World, stream: Stream, c: Call, depth: nat)
    requires !stream.readFails && c.cascade && IsVideo(FullName(c))
    ensures PostFile(env, w, stream, c, depth)
         == DeriveAndIngest(env, Written(w, stream, c, depth), c, depth, VideoThumbnail, stream.bytes, ThumbnailSuffix, false)
  {
    ClassifiersExclusive(FullName(c));
  }

  /** A copied image with cascade on takes the image branch. */
  lemma ImageBranch(env: Env, w: World, stream: Stream, c: Call, depth: nat)
    requires !stream.readFails && c.cascade && IsImage(FullName(c))
    ensures PostFile(env, w, stream, c, depth) == ImageCascade(env, Written(w, stream, c, depth), c, depth, stream.bytes)
  {
    ClassifiersExclusive(FullName(c));
  }

  // ----------------------------------------------------- one derive step

  /** The events after a trace prefix, as the steps append them. */
  lemma Appended<T>(a: seq<T>, b: seq<T>, c: seq<T>)
    ensures (a + b + c)[|a|..] == b + c
  {
  }

  /** One derive step: the service call is traced; an error fails the step
      and changes nothing else; an output is written under the derived name
      by a nested call, which fails the step exactly when its copy fails. A
      thumbnail is never indexed. */
  lemma DeriveSteps(
    env: Env, w: World, c: Call, depth: nat, s: Service, content: seq<byte>,
    suffix: string, cascade: bool)
    requires Derives(c) && Serves(env, s, c)
    requires suffix == ExtractSuffix || suffix == ThumbnailSuffix || suffix == LabelsSuffix
    requires suffix == ThumbnailSuffix ==> !cascade
    ensures var r := DeriveAndIngest(env, w, c, depth, s, content, suffix, cascade);
      match Invoke(env, s, FullName(c), content)
      case Err(_) =>
        && r.world == w.(trace := w.trace + [Invoked(s, FullName(c))])
        && r.outcome == Fail(ServiceFailed(s, FullName(c)))
      case Ok(out) =>
        && r.world.trace == w.trace + [Invoked(s, FullName(c)), Entered(Derived(c, suffix, cascade), depth + 1)]
        && FullName(c) + suffix in r.world.store
        && r.world.store[FullName(c) + suffix] == out.bytes
        && (r.outcome.Ok? <==> !out.readFails)
        && (out.readFails ==> r.outcome == Fail(DerivedIngestFailed(s, FullName(c), WriteFailed(FullName(c) + suffix))))
        && (suffix == ThumbnailSuffix ==> r.world.index == w.index)
        && r.world.index
           == (if cascade && !out.readFails
               then IndexText(env.accepts, w.index, TargetOf(Derived(c, suffix, cascade)), out.bytes,
                              ExistingSize(w.store, FullName(c) + suffix))
               else w.index)
        && (forall k :: k in w.store && !(FullName(c) + suffix <= k) ==> k in r.world.store && r.world.store[k] == w.store[k])
  {
    var full := FullName(c);
    var w1 := w.(trace := w.trace + [Invoked(s, full)]);
    match Invoke(env, s, full, content)
    case Err(_) =>
    case Ok(out) =>
      var child := Derived(c, suffix, cascade);
      DerivedCallIsLeaf(c, suffix, cascade);
      LeafSteps(env, w1, out, child, depth + 1);
      DerivedCallIndex(env, w1, out, c, suffix, cascade, depth + 1);
      TwoEvents(w.trace, Invoked(s, full), Entered(child, depth + 1));
  }

  /** A derive step whose service answers changes exactly one file, the
      derived one (main.go:336-339, 379-380, 392). */
  lemma DerivedStore(
    env: Env, w: World, c: Call, depth: nat, s: Service, content: seq<byte>,
    suffix: string, cascade: bool, out: Stream)
    requires Derives(c) && Serves(env, s, c)
    requires suffix == ExtractSuffix || suffix == ThumbnailSuffix || suffix == LabelsSuffix
    requires suffix == ThumbnailSuffix ==> !cascade
    requires Invoke(env, s, FullName(c), content) == Result.Ok(out)
    ensures DeriveAndIngest(env, w, c, depth, s, content, suffix, cascade).world.store
         == w.store[FullName(c) + suffix := out.bytes]
  {
    var w1 := w.(trace := w.trace + [Invoked(s, FullName(c))]);
    DerivedCallIsLeaf(c, suffix, cascade);
    LeafSteps(env, w1, out, Derived(c, suffix, cascade), depth + 1);
  }

  /** The index after the nested call for a derived artifact: an extract or
      labels file ingested with cascade on is a text file, so its bytes
      past the size it had before are indexed under the derived name
      (main.go:337, 392); a thumbnail, or an output whose copy fails,
      adds nothing. */
  lemma DerivedCallIndex(
    env: Env, w: World, out: Stream, c: Call, suffix: string, cascade: bool, depth: nat)
    requires suffix == ExtractSuffix || suffix == ThumbnailSuffix || suffix == LabelsSuffix
    requires suffix == ThumbnailSuffix ==> !cascade
    ensures PostFile(env, w, out, Derived(c, suffix, cascade), depth).world.index
         == if cascade && !out.readFails
            then IndexText(env.accepts, w.index, TargetOf(Derived(c, suffix, cascade)), out.bytes,
                           ExistingSize(w.store, FullName(c) + suffix))
            else w.index
  {
    var child := Derived(c, suffix, cascade);
    DerivedCallIsLeaf(c, suffix, cascade);
    if suffix == ExtractSuffix {
      ExtractNameIsText(FullName(c));
    } else if suffix == LabelsSuffix {
      LabelsNameIsText(FullName(c));
    }
    LeafSteps(env, w, out, child, depth);
  }

  /** A call that derives nothing appends only its own entry to the trace,
      writes its own file and no other, fails exactly when its copy does,
      and indexes its new bytes exactly when it is a text file with cascade
      on whose copy succeeded. */
  lemma LeafSteps(env: Env, w: World, stream: Stream, c: Call, depth: nat)
    requires !Derives(c)
    ensures var r := PostFile(env, w, stream, c, depth);
      && r.world.trace == w.trace + [Entered(c, depth)]
      && r.world.store == w.store[FullName(c) := stream.bytes]
      && (forall k :: k in w.store && !(FullName(c) <= k) ==> k in r.world.store && r.world.store[k] == w.store[k])
      && (r.outcome.Ok? <==> !stream.readFails)
      && (stream.readFails ==> r.outcome == Fail(WriteFailed(FullName(c))))
      && (!c.cascade ==> r.world.index == w.index)
      && r.world.index
         == (if !stream.readFails && c.cascade && IsTextFile(FullName(c))
             then IndexText(env.accepts, w.index, TargetOf(c), stream.bytes, ExistingSize(w.store, FullName(c)))
             else w.index)
  {
    var r := PostFile(env, w, stream, c, depth);
    assert |r.world.trace| == |w.trace| + 1;
    if !c.cascade {
      if stream.readFails {
        CopyErrorStopsEarly(env, w, stream, c, depth);
      } else {
        PlainFileOnlyWritten(env, w, stream, c, depth);
      }
    }
  }

  // ------------------------------------------------------------ documents

  /** For a document, the lower-cased `path.Ext` is `.pdf` exactly when the
      name ends in `.pdf`: the classifier only admits lower-case extensions,
      so the lower-casing at main.go:342 never changes the outcome. */
  lemma PdfTestForDocuments(full: string)
    requires IsDoc(full)
    ensures ToLower(Ext(full)) == ".pdf" <==> HasSuffix(full, ".pdf")
  {
    TablesAreDotExtensions();
    EndsWithAnyWitness(full, DocExtensions);
    var i :| 0 <= i < |DocExtensions| && HasSuffix(full, DocExtensions[i]);
    var e := DocExtensions[i];
    ExtOfDotSuffix(full, e);
    DocExtensionsLowercase();
    ToLowerKeepsLowercase(e);
    assert IsDotExtension(DocExtensions[6]);
    if HasSuffix(full, ".pdf") {
      DotSuffixesCoincide(full, e, ".pdf");
    }
  }

  /** A failed extraction (main.go:330-334) fails the call after the
      write: nothing is derived or indexed. */
  lemma DocumentExtractFails(env: Env, w: World, stream: Stream, c: Call, depth: nat)
    requires !stream.readFails && c.cascade && IsDoc(FullName(c))
    requires env.extract(FullName(c), stream.bytes).Err?
    ensures var r := PostFile(env, w, stream, c, depth);
      && r.outcome == Fail(ServiceFailed(Extract, FullName(c)))
      && r.world.store == w.store[FullName(c) := stream.bytes]
      && r.world.index == w.index
      && r.world.trace == w.trace + [Entered(c, depth), Invoked(Extract, FullName(c))]
  {
    var written := Written(w, stream, c, depth);
    DocumentBranch(env, w, stream, c, depth);
    DeriveSteps(env, written, c, depth, Extract, stream.bytes, ExtractSuffix, true);
  }

  /** A successful extraction is stored as `name--extract.txt` and ingested
      one level down with cascade on (main.go:336-340), so its text is
      indexed; when that ingestion fails, so does the call. */
  lemma DocumentExtractIngested(env: Env, w: World, stream: Stream, c: Call, depth: nat, text: Stream)
    requires !stream.readFails && c.cascade && IsDoc(FullName(c))
    requires env.extract(FullName(c), stream.bytes) == Result.Ok(text)
    ensures var r := PostFile(env, w, stream, c, depth);
      && |r.world.trace| > |w.trace| + 2
      && r.world.trace[|w.trace| + 1] == Invoked(Extract, FullName(c))
      && r.world.trace[|w.trace| + 2] == Entered(Derived(c, ExtractSuffix, true), depth + 1)
      && FullName(c) + ExtractSuffix in r.world.store
      && r.world.store[FullName(c) + ExtractSuffix] == text.bytes
      && (!text.readFails ==>
            r.world.index
            == IndexText(env.accepts, w.index, TargetOf(Derived(c, ExtractSuffix, true)), text.bytes,
                         ExistingSize(w.store, FullName(c) + ExtractSuffix)))
      && (text.readFails ==>
            && r.outcome == Fail(DerivedIngestFailed(Extract, FullName(c), WriteFailed(FullName(c) + ExtractSuffix)))
            && r.world.trace
               == w.trace + [Entered(c, depth), Invoked(Extract, FullName(c)), Entered(Derived(c, ExtractSuffix, true), depth + 1)])
  {
    ExtractStored(env, w, stream, c, depth, text);
    if text.readFails {
      ExtractIngestFails(env, w, stream, c, depth, text);
    } else {
      ExtractIndexed(env, w, stream, c, depth, text);
    }
  }

  /** The extract's trace positions, its stored bytes, and the failure a
      failed copy of it gives the call. */
  lemma ExtractStored(env: Env, w: World, stream: Stream, c: Call, depth: nat, text: Stream)
    requires !stream.readFails && c.cascade && IsDoc(FullName(c))
    requires env.extract(FullName(c), stream.bytes) == Result.Ok(text)
    ensures var r := PostFile(env, w, stream, c, depth);
      && |r.world.trace| > |w.trace| + 2
      && r.world.trace[|w.trace| + 1] == Invoked(Extract, FullName(c))
      && r.world.trace[|w.trace| + 2] == Entered(Derived(c, ExtractSuffix, true), depth + 1)
      && FullName(c) + ExtractSuffix in r.world.store
      && r.world.store[FullName(c) + ExtractSuffix] == text.bytes
      && (text.readFails ==>
            r.outcome == Fail(DerivedIngestFailed(Extract, FullName(c), WriteFailed(FullName(c) + ExtractSuffix))))
  {
    var full := FullName(c);
    var written := Written(w, stream, c, depth);
    var e := DeriveAndIngest(env, written, c, depth, Extract, stream.bytes, ExtractSuffix, true);
    DocumentBranch(env, w, stream, c, depth);
    DeriveSteps(env, written, c, depth, Extract, stream.bytes, ExtractSuffix, true);
    if e.outcome.Ok? && ToLower(Ext(full)) == ".pdf" {
      var t := DeriveAndIngest(env, e.world, c, depth, PdfThumbnail, stream.bytes, ThumbnailSuffix, false);
      DeriveSteps(env, e.world, c, depth, PdfThumbnail, stream.bytes, ThumbnailSuffix, false);
      assert t.world.trace[..|e.world.trace|] == e.world.trace;
    }
  }

  /** When the extract's copy fails, the document call ends with the
      extract's nested entry (main.go:336-340). */
  lemma ExtractIngestFails(env: Env, w: World, stream: Stream, c: Call, depth: nat, text: Stream)
    requires !stream.readFails && c.cascade && IsDoc(FullName(c))
    requires env.extract(FullName(c), stream.bytes) == Result.Ok(text) && text.readFails
    ensures PostFile(env, w, stream, c, depth).world.trace
         == w.trace + [Entered(c, depth), Invoked(Extract, FullName(c)), Entered(Derived(c, ExtractSuffix, true), depth + 1)]
  {
    var written := Written(w, stream, c, depth);
    DocumentBranch(env, w, stream, c, depth);
    ExtractCopyFails(env, written, c, depth, stream.bytes, text);
    ThreeEvents(w.trace, Entered(c, depth), Invoked(Extract, FullName(c)), Entered(Derived(c, ExtractSuffix, true), depth + 1));
  }

  lemma TwoEvents(a: seq<Event>, x: Event, y: Event)
    ensures a + [x] + [y] == a + [x, y]
  {
  }

  lemma FiveEvents(a: seq<Event>, x: Event, y: Event, z: Event, u: Event, v: Event)
    ensures a + [x] + [y, z] + [u, v] == a + [x, y, z, u, v]
  {
  }

  lemma ThreeEvents(a: seq<Event>, x: Event, y: Event, z: Event)
    ensures a + [x] + [y, z] == a + [x, y, z]
  {
  }

  lemma ExtractCopyFails(env: Env, w: World, c: Call, depth: nat, content: seq<byte>, text: Stream)
    requires c.cascade && IsDoc(FullName(c))
    requires env.extract(FullName(c), content) == Result.Ok(text) && text.readFails
    ensures DocumentCascade(env, w, c, depth, content).world.trace
         == w.trace + [Invoked(Extract, FullName(c)), Entered(Derived(c, ExtractSuffix, true), depth + 1)]
  {
    DeriveSteps(env, w, c, depth, Extract, content, ExtractSuffix, true);
  }

  /** The trace of a document call whose extract was ingested: the call,
      the extraction, the nested call for the extract, then events that
      start with the thumbnail request exactly when the lower-cased
      extension is `.pdf`. */
  lemma DocumentTraceAfterExtract(env: Env, w: World, stream: Stream, c: Call, depth: nat, text: Stream)
    returns (tail: seq<Event>)
    requires !stream.readFails && c.cascade && IsDoc(FullName(c))
    requires env.extract(FullName(c), stream.bytes) == Result.Ok(text) && !text.readFails
    ensures PostFile(env, w, stream, c, depth).world.trace
         == w.trace + [Entered(c, depth), Invoked(Extract, FullName(c)), Entered(Derived(c, ExtractSuffix, true), depth + 1)] + tail
    ensures ToLower(Ext(FullName(c))) == ".pdf" ==> |tail| > 0 && tail[0] == Invoked(PdfThumbnail, FullName(c))
    ensures ToLower(Ext(FullName(c))) == ".pdf" && env.pdfThumbnail(FullName(c), stream.bytes).Err? ==>
      tail == [Invoked(PdfThumbnail, FullName(c))]
    ensures ToLower(Ext(FullName(c))) == ".pdf" && env.pdfThumbnail(FullName(c), stream.bytes).Ok? ==>
      tail == [Invoked(PdfThumbnail, FullName(c)), Entered(Derived(c, ThumbnailSuffix, false), depth + 1)]
    ensures ToLower(Ext(FullName(c))) != ".pdf" ==> tail == []
  {
    var full := FullName(c);
    var e := DeriveAndIngest(env, Written(w, stream, c, depth), c, depth, Extract, stream.bytes, ExtractSuffix, true);
    ExtractIngested(env, w, stream, c, depth, text);
    if ToLower(Ext(full)) == ".pdf" {
      DeriveSteps(env, e.world, c, depth, PdfThumbnail, stream.bytes, ThumbnailSuffix, false);
      match env.pdfThumbnail(full, stream.bytes)
      case Err(_) =>
        tail := [Invoked(PdfThumbnail, full)];
      case Ok(_) =>
        tail := [Invoked(PdfThumbnail, full), Entered(Derived(c, ThumbnailSuffix, false), depth + 1)];
    } else {
      tail := [];
    }
  }

  lemma ExtractIngested(env: Env, w: World, stream: Stream, c: Call, depth: nat, text: Stream)
    requires !stream.readFails && c.cascade && IsDoc(FullName(c))
    requires env.extract(FullName(c), stream.bytes) == Result.Ok(text) && !text.readFails
    ensures var e := DeriveAndIngest(env, Written(w, stream, c, depth), c, depth, Extract, stream.bytes, ExtractSuffix, true);
      && e.outcome == Outcome.Ok
      && e.world.trace == w.trace + [Entered(c, depth), Invoked(Extract, FullName(c)), Entered(Derived(c, ExtractSuffix, true), depth + 1)]
      && PostFile(env, w, stream, c, depth)
         == if ToLower(Ext(FullName(c))) == ".pdf"
            then DeriveAndIngest(env, e.world, c, depth, PdfThumbnail, stream.bytes, ThumbnailSuffix, false)
            else e
  {
    var written := Written(w, stream, c, depth);
    DocumentBranch(env, w, stream, c, depth);
    ExtractCopySucceeds(env, written, c, depth, stream.bytes, text);
    ThreeEvents(w.trace, Entered(c, depth), Invoked(Extract, FullName(c)), Entered(Derived(c, ExtractSuffix, true), depth + 1));
  }

  /** The extract's text is indexed under the extract's name from the size
      that file had before, and the PDF thumbnail after it adds no rows. */
  lemma ExtractIndexed(env: Env, w: World, stream: Stream, c: Call, depth: nat, text: Stream)
    requires !stream.readFails && c.cascade && IsDoc(FullName(c))
    requires env.extract(FullName(c), stream.bytes) == Result.Ok(text) && !text.readFails
    ensures PostFile(env, w, stream, c, depth).world.index
         == IndexText(env.accepts, w.index, TargetOf(Derived(c, ExtractSuffix, true)), text.bytes,
                      ExistingSize(w.store, FullName(c) + ExtractSuffix))
  {
    var full := FullName(c);
    var written := Written(w, stream, c, depth);
    DocumentBranch(env, w, stream, c, depth);
    ExtractCopySucceeds(env, written, c, depth, stream.bytes, text);
    assert |full + ExtractSuffix| != |full|;
    assert ExistingSize(written.store, full + ExtractSuffix) == ExistingSize(w.store, full + ExtractSuffix);
    if ToLower(Ext(full)) == ".pdf" {
      var e := DeriveAndIngest(env, written, c, depth, Extract, stream.bytes, ExtractSuffix, true);
      DeriveSteps(env, e.world, c, depth, PdfThumbnail, stream.bytes, ThumbnailSuffix, false);
    }
  }

  lemma ExtractCopySucceeds(env: Env, w: World, c: Call, depth: nat, content: seq<byte>, text: Stream)
    requires c.cascade && IsDoc(FullName(c))
    requires env.extract(FullName(c), content) == Result.Ok(text) && !text.readFails
    ensures var e := DeriveAndIngest(env, w, c, depth, Extract, content, ExtractSuffix, true);
      && e.outcome == Outcome.Ok
      && e.world.trace == w.trace + [Invoked(Extract, FullName(c)), Entered(Derived(c, ExtractSuffix, true), depth + 1)]
      && e.world.index
         == IndexText(env.accepts, w.index, TargetOf(Derived(c, ExtractSuffix, true)), text.bytes,
                      ExistingSize(w.store, FullName(c) + ExtractSuffix))
      && DocumentCascade(env, w, c, depth, content)
         == if ToLower(Ext(FullName(c))) == ".pdf"
            then DeriveAndIngest(env, e.world, c, depth, PdfThumbnail, content, ThumbnailSuffix, false)
            else e
  {
    DeriveSteps(env, w, c, depth, Extract, content, ExtractSuffix, true);
  }

  /** A document call asks for a PDF thumbnail exactly when the extraction
      succeeded, its text was ingested, and the name ends in `.pdf`
      (main.go:330-354): a failed extraction or extract ingestion returns
      before the thumbnail. */
  lemma PdfThumbnailOnlyForPdf(env: Env, w: World, stream: Stream, c: Call, depth: nat)
    requires !stream.readFails && c.cascade && IsDoc(FullName(c))
    ensures var r := PostFile(env, w, stream, c, depth);
      var x := env.extract(FullName(c), stream.bytes);
      (Invoked(PdfThumbnail, FullName(c)) in r.world.trace[|w.trace|..]
       <==> x.Ok? && !x.value.readFails && HasSuffix(FullName(c), ".pdf"))
  {
    var full := FullName(c);
    var r := PostFile(env, w, stream, c, depth);
    match env.extract(full, stream.bytes)
    case Err(_) =>
      DocumentExtractFails(env, w, stream, c, depth);
      assert r.world.trace[|w.trace|..] == [Entered(c, depth), Invoked(Extract, full)];
    case Ok(text) =>
      if text.readFails {
        DocumentExtractIngested(env, w, stream, c, depth, text);
        assert r.world.trace[|w.trace|..]
            == [Entered(c, depth), Invoked(Extract, full), Entered(Derived(c, ExtractSuffix, true), depth + 1)];
      } else {
        PdfThumbnailAfterExtract(env, w, stream, c, depth, text);
      }
  }

  /** After the extract is in, a thumbnail is asked for exactly when the
      document is a PDF (main.go:342-354). */
  lemma PdfThumbnailAfterExtract(env: Env, w: World, stream: Stream, c: Call, depth: nat, text: Stream)
    requires !stream.readFails && c.cascade && IsDoc(FullName(c))
    requires env.extract(FullName(c), stream.bytes) == Result.Ok(text) && !text.readFails
    ensures var r := PostFile(env, w, stream, c, depth);
      Invoked(PdfThumbnail, FullName(c)) in r.world.trace[|w.trace|..] <==> HasSuffix(FullName(c), ".pdf")
  {
    var full := FullName(c);
    var head := [Entered(c, depth), Invoked(Extract, full), Entered(Derived(c, ExtractSuffix, true), depth + 1)];
    var tail := DocumentTraceAfterExtract(env, w, stream, c, depth, text);
    Appended(w.trace, head, tail);
    PdfTestForDocuments(full);
    if ToLower(Ext(full)) == ".pdf" {
      assert (head + tail)[3] == Invoked(PdfThumbnail, full);
    } else {
      assert head + tail == head;
      assert Invoked(PdfThumbnail, full) !in head;
    }
  }

  // --------------------------------------------------------------- videos

  /** A video gets exactly one service call, a thumbnail stored as
      `name--thumbnail.png` and ingested with cascade off (main.go:360-371);
      either failure fails the call. */
  lemma VideoThumbnailOnly(env: Env, w: World, stream: Stream, c: Call, depth: nat)
    requires !stream.readFails && c.cascade && IsVideo(FullName(c))
    ensures var r := PostFile(env, w, stream, c, depth);
      && |r.world.trace| > |w.trace| + 1
      && r.world.trace[|w.trace| + 1] == Invoked(VideoThumbnail, FullName(c))
      && r.world.index == w.index
      && match env.videoThumbnail(FullName(c), stream.bytes)
         case Err(_) => r.outcome == Fail(ServiceFailed(VideoThumbnail, FullName(c)))
         case Ok(thumb) =>
           && r.world.trace == w.trace + [Entered(c, depth), Invoked(VideoThumbnail, FullName(c)),
                                          Entered(Derived(c, ThumbnailSuffix, false), depth + 1)]
           && FullName(c) + ThumbnailSuffix in r.world.store
           && r.world.store[FullName(c) + ThumbnailSuffix] == thumb.bytes
           && (r.outcome.Ok? <==> !thumb.readFails)
  {
    var written := Written(w, stream, c, depth);
    VideoBranch(env, w, stream, c, depth);
    DeriveSteps(env, written, c, depth, VideoThumbnail, stream.bytes, ThumbnailSuffix, false);
  }

  // --------------------------------------------------------------- images

  /** An image's thumbnail is fatal when it fails (main.go:374-384): then no
      labels are asked for. */
  lemma ImageThumbnailFatal(env: Env, w: World, stream: Stream, c: Call, depth: nat)
    requires !stream.readFails && c.cascade && IsImage(FullName(c))
    requires env.imageThumbnail(FullName(c), stream.bytes).Err?
      || env.imageThumbnail(FullName(c), stream.bytes).value.readFails
    ensures var r := PostFile(env, w, stream, c, depth);
      && r.outcome.Fail?
      && Invoked(DetectLabels, FullName(c)) !in r.world.trace[|w.trace|..]
  {
    var full := FullName(c);
    var r := PostFile(env, w, stream, c, depth);
    var tail := ImageThumbnailFails(env, w, stream, c, depth);
    Appended(w.trace, [Entered(c, depth)], tail);
    assert Invoked(DetectLabels, full) !in [Entered(c, depth)] + tail;
  }

  lemma ImageThumbnailFails(env: Env, w: World, stream: Stream, c: Call, depth: nat) returns (tail: seq<Event>)
    requires !stream.readFails && c.cascade && IsImage(FullName(c))
    requires env.imageThumbnail(FullName(c), stream.bytes).Err?
      || env.imageThumbnail(FullName(c), stream.bytes).value.readFails
    ensures var r := PostFile(env, w, stream, c, depth);
      && r.outcome.Fail?
      && r.world.trace == w.trace + [Entered(c, depth)] + tail
      && (forall i :: 0 <= i < |tail| ==> tail[i] != Invoked(DetectLabels, FullName(c)))
    ensures env.imageThumbnail(FullName(c), stream.bytes).Err? ==> tail == [Invoked(ImageThumbnail, FullName(c))]
    ensures env.imageThumbnail(FullName(c), stream.bytes).Ok? ==>
      tail == [Invoked(ImageThumbnail, FullName(c)), Entered(Derived(c, ThumbnailSuffix, false), depth + 1)]
  {
    var full := FullName(c);
    var written := Written(w, stream, c, depth);
    ImageBranch(env, w, stream, c, depth);
    DeriveSteps(env, written, c, depth, ImageThumbnail, stream.bytes, ThumbnailSuffix, false);
    match env.imageThumbnail(full, stream.bytes)
    case Err(_) =>
      tail := [Invoked(ImageThumbnail, full)];
    case Ok(thumb) =>
      tail := [Invoked(ImageThumbnail, full), Entered(Derived(c, ThumbnailSuffix, false), depth + 1)];
  }

  /** An image whose thumbnail service answers (main.go:374-384): the
      thumbnail request and its file's own call come right after the
      image's entry, the thumbnail is stored as `name--thumbnail.png` and
      stays there, and a failed copy of it fails the call. After a good
      copy, label detection comes next when the label service is on;
      otherwise the call succeeds with the index untouched. */
  lemma ImageThumbnailIngested(env: Env, w: World, stream: Stream, c: Call, depth: nat, thumb: Stream)
    requires !stream.readFails && c.cascade && IsImage(FullName(c))
    requires env.imageThumbnail(FullName(c), stream.bytes) == Result.Ok(thumb)
    ensures var r := PostFile(env, w, stream, c, depth);
      && |r.world.trace| > |w.trace| + 2
      && r.world.trace[|w.trace| + 1] == Invoked(ImageThumbnail, FullName(c))
      && r.world.trace[|w.trace| + 2] == Entered(Derived(c, ThumbnailSuffix, false), depth + 1)
      && FullName(c) + ThumbnailSuffix in r.world.store
      && r.world.store[FullName(c) + ThumbnailSuffix] == thumb.bytes
    ensures var r := PostFile(env, w, stream, c, depth);
      thumb.readFails ==>
        r.outcome == Fail(DerivedIngestFailed(ImageThumbnail, FullName(c), WriteFailed(FullName(c) + ThumbnailSuffix)))
    ensures var r := PostFile(env, w, stream, c, depth);
      !thumb.readFails && !env.useVisionAPI ==>
        && r.outcome == Outcome.Ok
        && r.world.index == w.index
        && r.world.trace == w.trace + [Entered(c, depth), Invoked(ImageThumbnail, FullName(c)),
                                       Entered(Derived(c, ThumbnailSuffix, false), depth + 1)]
    ensures var r := PostFile(env, w, stream, c, depth);
      !thumb.readFails && env.useVisionAPI ==>
        |r.world.trace| > |w.trace| + 3 && r.world.trace[|w.trace| + 3] == Invoked(DetectLabels, FullName(c))
  {
    var full := FullName(c);
    var written := Written(w, stream, c, depth);
    ImageBranch(env, w, stream, c, depth);
    DeriveSteps(env, written, c, depth, ImageThumbnail, stream.bytes, ThumbnailSuffix, false);
    ThreeEvents(w.trace, Entered(c, depth), Invoked(ImageThumbnail, full), Entered(Derived(c, ThumbnailSuffix, false), depth + 1));
    var t := DeriveAndIngest(env, written, c, depth, ImageThumbnail, stream.bytes, ThumbnailSuffix, false);
    if !thumb.readFails && env.useVisionAPI {
      LabelsKeepThumbnail(env, t.world, c, depth, stream.bytes);
    }
  }

  /** Label detection appends its request and keeps the thumbnail file: the
      labels go to a different name. */
  lemma LabelsKeepThumbnail(env: Env, w: World, c: Call, depth: nat, content: seq<byte>)
    requires c.cascade && IsImage(FullName(c)) && env.useVisionAPI
    ensures var r := ImageLabels(env, w, c, depth, content);
      && |r.world.trace| > |w.trace|
      && r.world.trace[..|w.trace|] == w.trace
      && r.world.trace[|w.trace|] == Invoked(DetectLabels, FullName(c))
      && (FullName(c) + ThumbnailSuffix in w.store ==>
            && FullName(c) + ThumbnailSuffix in r.world.store
            && r.world.store[FullName(c) + ThumbnailSuffix] == w.store[FullName(c) + ThumbnailSuffix])
  {
    match env.detectLabels(FullName(c), content)
    case Err(_) =>
    case Ok(labels) =>
      LabelsIngested(env, w, c, depth, content, labels);
      assert |FullName(c) + ThumbnailSuffix| != |FullName(c) + LabelsSuffix|;
  }

  /** Label detection that fails is fatal (main.go:387-390). */
  lemma LabelDetectionFatal(env: Env, w: World, stream: Stream, c: Call, depth: nat, thumb: Stream)
    requires !stream.readFails && c.cascade && IsImage(FullName(c)) && env.useVisionAPI
    requires env.imageThumbnail(FullName(c), stream.bytes) == Result.Ok(thumb) && !thumb.readFails
    requires env.detectLabels(FullName(c), stream.bytes).Err?
    ensures PostFile(env, w, stream, c, depth).outcome == Fail(ServiceFailed(DetectLabels, FullName(c)))
  {
    var written := Written(w, stream, c, depth);
    ImageBranch(env, w, stream, c, depth);
    DeriveSteps(env, written, c, depth, ImageThumbnail, stream.bytes, ThumbnailSuffix, false);
  }

  /** Detected labels are stored as `name--labels.json` and ingested with
      the caller's cascade flag; a failure there is only logged, and the
      call succeeds (main.go:391-398). */
  lemma LabelIngestFailureIgnored(
    env: Env, w: World, stream: Stream, c: Call, depth: nat, thumb: Stream, labels: Stream)
    requires !stream.readFails && c.cascade && IsImage(FullName(c)) && env.useVisionAPI
    requires env.imageThumbnail(FullName(c), stream.bytes) == Result.Ok(thumb) && !thumb.readFails
    requires env.detectLabels(FullName(c), stream.bytes) == Result.Ok(labels)
    ensures var r := PostFile(env, w, stream, c, depth);
      && r.outcome == Outcome.Ok
      && FullName(c) + LabelsSuffix in r.world.store
      && r.world.store[FullName(c) + LabelsSuffix] == labels.bytes
      && Entered(Derived(c, LabelsSuffix, true), depth + 1) in r.world.trace
  {
    var full := FullName(c);
    var written := Written(w, stream, c, depth);
    ImageBranch(env, w, stream, c, depth);
    DeriveSteps(env, written, c, depth, ImageThumbnail, stream.bytes, ThumbnailSuffix, false);
    var t := DeriveAndIngest(env, written, c, depth, ImageThumbnail, stream.bytes, ThumbnailSuffix, false);
    var w1 := t.world.(trace := t.world.trace + [Invoked(DetectLabels, full)]);
    var child := Derived(c, LabelsSuffix, true);
    DerivedCallIsLeaf(c, LabelsSuffix, true);
    var sub := PostFile(env, w1, labels, child, depth + 1);
    assert sub.world.trace[|w1.trace|] == Entered(child, depth + 1);
  }

  /** The exact world label detection leaves (main.go:386-397): the labels
      request and the labels file's own call on the trace, the labels
      stored as `name--labels.json` and no other file touched, and their
      bytes indexed under that name unless their copy fails; the step
      succeeds either way. */
  lemma LabelsIngested(env: Env, w: World, c: Call, depth: nat, content: seq<byte>, labels: Stream)
    requires c.cascade && IsImage(FullName(c)) && env.useVisionAPI
    requires env.detectLabels(FullName(c), content) == Result.Ok(labels)
    ensures var r := ImageLabels(env, w, c, depth, content);
      && r.outcome == Outcome.Ok
      && r.world.trace == w.trace + [Invoked(DetectLabels, FullName(c)), Entered(Derived(c, LabelsSuffix, true), depth + 1)]
      && r.world.store == w.store[FullName(c) + LabelsSuffix := labels.bytes]
      && r.world.index
         == (if labels.readFails then w.index
             else IndexText(env.accepts, w.index, TargetOf(Derived(c, LabelsSuffix, true)), labels.bytes,
                            ExistingSize(w.store, FullName(c) + LabelsSuffix)))
  {
    var w1 := w.(trace := w.trace + [Invoked(DetectLabels, FullName(c))]);
    var child := Derived(c, LabelsSuffix, true);
    DerivedCallIsLeaf(c, LabelsSuffix, true);
    LabelsNameIsText(FullName(c));
    LeafSteps(env, w1, labels, child, depth + 1);
    TwoEvents(w.trace, Invoked(DetectLabels, FullName(c)), Entered(child, depth + 1));
  }

  /** An image with a good thumbnail and detected labels (main.go:373-401)
      ends in exactly this world: the image, its thumbnail and its labels
      stored, the labels' new bytes indexed under `name--labels.json`
      unless their copy fails, and the trace the image's entry, the
      thumbnail request and call, the detection request and the labels'
      call, in that order. The call succeeds. */
  lemma ImageLabelsIngested(
    env: Env, w: World, stream: Stream, c: Call, depth: nat, thumb: Stream, labels: Stream)
    requires !stream.readFails && c.cascade && IsImage(FullName(c)) && env.useVisionAPI
    requires env.imageThumbnail(FullName(c), stream.bytes) == Result.Ok(thumb) && !thumb.readFails
    requires env.detectLabels(FullName(c), stream.bytes) == Result.Ok(labels)
    ensures var r := PostFile(env, w, stream, c, depth);
      && r.outcome == Outcome.Ok
      && r.world.index
         == (if labels.readFails then w.index
             else IndexText(env.accepts, w.index, TargetOf(Derived(c, LabelsSuffix, true)), labels.bytes,
                            ExistingSize(w.store, FullName(c) + LabelsSuffix)))
      && r.world.trace
         == w.trace + [Entered(c, depth), Invoked(ImageThumbnail, FullName(c)),
                       Entered(Derived(c, ThumbnailSuffix, false), depth + 1),
                       Invoked(DetectLabels, FullName(c)), Entered(Derived(c, LabelsSuffix, true), depth + 1)]
      && r.world.store
         == w.store[FullName(c) := stream.bytes][FullName(c) + ThumbnailSuffix := thumb.bytes]
                   [FullName(c) + LabelsSuffix := labels.bytes]
  {
    var full := FullName(c);
    var written := Written(w, stream, c, depth);
    ImageBranch(env, w, stream, c, depth);
    DeriveSteps(env, written, c, depth, ImageThumbnail, stream.bytes, ThumbnailSuffix, false);
    DerivedStore(env, written, c, depth, ImageThumbnail, stream.bytes, ThumbnailSuffix, false, thumb);
    var t := DeriveAndIngest(env, written, c, depth, ImageThumbnail, stream.bytes, ThumbnailSuffix, false);
    LabelsIngested(env, t.world, c, depth, stream.bytes, labels);
    assert |full + LabelsSuffix| != |full| && |full + LabelsSuffix| != |full + ThumbnailSuffix|;
    assert ExistingSize(t.world.store, full + LabelsSuffix) == ExistingSize(w.store, full + LabelsSuffix);
    FiveEvents(w.trace, Entered(c, depth), Invoked(ImageThumbnail, full), Entered(Derived(c, ThumbnailSuffix, false), depth + 1),
               Invoked(DetectLabels, full), Entered(Derived(c, LabelsSuffix, true), depth + 1));
  }

  /** Labels are never asked for unless the label service is switched on,
      and only ever for images. */
  lemma LabelsOnlyWithVision(env: Env, w: World, stream: Stream, c: Call, depth: nat)
    ensures var r := PostFile(env, w, stream, c, depth);
      Invoked(DetectLabels, FullName(c)) in r.world.trace[|w.trace|..] ==> env.useVisionAPI && IsImage(FullName(c))
  {
    var r := PostFile(env, w, stream, c, depth);
    var e := Invoked(DetectLabels, FullName(c));
    if e in r.world.trace[|w.trace|..] {
      var j :| 0 <= j < |r.world.trace| - |w.trace| && r.world.trace[|w.trace|..][j] == e;
      assert r.world.trace[|w.trace| + j] == e;
      assert NestedEvent(env, r.world.trace[|w.trace| + j], c, depth);
    }
  }

  // ------------------------------------------------------------ recursion

  /** Every call a top-level ingestion enters is the call itself at depth 0,
      which is the first new event and the only one at that depth, or a
      derived call at depth 1 that derives nothing. */
  lemma RecursionOneLevelDeep(env: Env, w: World, stream: Stream, c: Call)
    ensures var r := PostFile(env, w, stream, c, 0);
      forall i :: |w.trace| <= i < |r.world.trace| && r.world.trace[i].Entered? ==>
        && r.world.trace[i].depth <= 1
        && (r.world.trace[i].depth == 0 <==> i == |w.trace|)
        && (r.world.trace[i].depth == 0 ==> r.world.trace[i].call == c)
        && (r.world.trace[i].depth == 1 ==> !Derives(r.world.trace[i].call))
  {
  }
}

=== FILE: strings.dfy ===
/** The three operations of Go's `strings` package that the ingestion core
    relies on: `HasSuffix`, `Split` with a one-character separator, and
    `Join`. `Split` and `Join` are proved to be inverse to each other. */
module Strings {

  /** `strings.HasSuffix`: `s` ends with `suffix` (case-sensitive). */
  predicate HasSuffix(s: string, suffix: string) {
    |suffix| <= |s| && s[|s| - |suffix|..] == suffix
  }

  /** `strings.Join(parts, sep)` for a one-character separator. */
  function Join(parts: seq<string>, sep: char): string
    decreases |parts|
  {
    if |parts| == 0 then ""
    else if |parts| == 1 then parts[0]
    else parts[0] + [sep] + Join(parts[1..], sep)
  }

  /** `strings.Split(s, sep)` for a one-character separator: the maximal
      separator-free pieces between separators, always at least one, and
      joining them back gives `s`. */
  function Split(s: string, sep: char): (parts: seq<string>)
    ensures |parts| >= 1
    ensures forall i :: 0 <= i < |parts| ==> sep !in parts[i]
    ensures Join(parts, sep) == s
    decreases |s|
  {
    if |s| == 0 then [""]
    else
      var rest := Split(s[1..], sep);
      if s[0] == sep then
        assert [s[0]] + Join(rest, sep) == s;
        [""] + rest
      else
        var parts := [[s[0]] + rest[0]] + rest[1..];
        assert parts[1..] == rest[1..];
        assert Join(parts, sep) == s by {
          if |rest| > 1 {
            assert Join(rest, sep) == rest[0] + [sep] + Join(rest[1..], sep);
          }
        }
        parts
  }

  /** Suffix tests on a concatenation only look at its tail. */
  lemma SuffixOfConcat(a: string, b: string, e: string)
    requires |e| <= |b|
    ensures HasSuffix(a + b, e) <==> HasSuffix(b, e)
  {
    assert (a + b)[|a + b| - |e|..] == b[|b| - |e|..];
  }

  /** Two suffixes of one string: the shorter is a suffix of the longer. */
  lemma SuffixesNest(s: string, a: string, b: string)
    requires HasSuffix(s, a) && HasSuffix(s, b) && |a| <= |b|
    ensures HasSuffix(b, a)
  {
    assert b[|b| - |a|..] == s[|s| - |a|..];
  }

  /** Joining two non-empty lists puts one separator between the halves. */
  lemma {:induction false} JoinAppend(xs: seq<string>, ys: seq<string>, sep: char)
    requires |xs| > 0 && |ys| > 0
    ensures Join(xs + ys, sep) == Join(xs, sep) + [sep] + Join(ys, sep)
    decreases |xs|
  {
    if |xs| == 1 {
      assert (xs + ys)[1..] == ys;
    } else {
      assert (xs + ys)[1..] == xs[1..] + ys;
      JoinAppend(xs[1..], ys, sep);
    }
  }

  /** Splitting a separator-free word followed by more text glues the word
      onto the first piece of the rest. */
  lemma {:induction false} SplitWordPrefix(w: string, rest: string, sep: char)
    requires sep !in w
    ensures Split(w + rest, sep) == [w + Split(rest, sep)[0]] + Split(rest, sep)[1..]
    decreases |w|
  {
    if |w| > 0 {
      assert (w + rest)[0] == w[0];
      assert (w + rest)[1..] == w[1..] + rest;
      SplitWordPrefix(w[1..], rest, sep);
      assert [w[0]] + (w[1..] + Split(rest, sep)[0]) == w + Split(rest, sep)[0];
    } else {
      assert w + rest == rest;
      assert w + Split(rest, sep)[0] == Split(rest, sep)[0];
      assert [Split(rest, sep)[0]] + Split(rest, sep)[1..] == Split(rest, sep);
    }
  }

  /** `Split` undoes `Join` when no piece contains the separator. */
  lemma {:induction false} SplitJoin(parts: seq<string>, sep: char)
    requires |parts| >= 1
    requires forall i :: 0 <= i < |parts| ==> sep !in parts[i]
    ensures Split(Join(parts, sep), sep) == parts
    decreases |parts|
  {
    if |parts| == 1 {
      SplitWordPrefix(parts[0], "", sep);
      assert parts[0] + "" == parts[0];
    } else {
      var tail := Join(parts[1..], sep);
      SplitJoin(parts[1..], sep);
      assert Join(parts, sep) == parts[0] + ([sep] + tail);
      SplitWordPrefix(parts[0], [sep] + tail, sep);
      assert ([sep] + tail)[1..] == tail;
      assert Split([sep] + tail, sep) == [""] + parts[1..];
      assert parts[0] + "" == parts[0];
      assert [parts[0]] + parts[1..] == parts;
    }
  }

  /** A word without the separator splits into itself. */
  lemma SplitWord(w: string, sep: char)
    requires sep !in w
    ensures Split(w, sep) == [w]
  {
    SplitJoin([w], sep);
  }

  /** Splitting around one separator splits both sides independently. */
  lemma SplitAround(a: string, b: string, sep: char)
    ensures Split(a + [sep] + b, sep) == Split(a, sep) + Split(b, sep)
  {
    var xs, ys := Split(a, sep), Split(b, sep);
    JoinAppend(xs, ys, sep);
    assert forall i :: 0 <= i < |xs + ys| ==> sep !in (xs + ys)[i] by {
      forall i | 0 <= i < |xs + ys| ensures sep !in (xs + ys)[i] {
        if i < |xs| { assert (xs + ys)[i] == xs[i]; } else { assert (xs + ys)[i] == ys[i - |xs|]; }
      }
    }
    SplitJoin(xs + ys, sep);
  }

  /** Dropping the last piece of a split: the prefix up to the last separator. */
  lemma JoinDropLast(parts: seq<string>, sep: char)
    requires |parts| >= 2
    ensures Join(parts[..|parts| - 1], sep) + [sep] + parts[|parts| - 1] == Join(parts, sep)
  {
    assert parts == parts[..|parts| - 1] + [parts[|parts| - 1]];
    JoinAppend(parts[..|parts| - 1], [parts[|parts| - 1]], sep);
  }
}

=== FILE: textindex.dfy ===
/** The full-text index side of ingestion (main.go:243-267 and 403-437): a
    text file is read from a start offset in 4096-byte buffers, and every
    buffer becomes one row of the `filesearch` table, numbered from part 0.
    A row the database refuses is skipped without stopping the loop. */
module TextIndex {

  newtype byte = x: int | 0 <= x < 0x100

  /** The read buffer, `make([]byte, 4*1024)`. */
  const ChunkSize: nat := 4096

  /** One row of the `filesearch` table. */
  datatype IndexRecord = IndexRecord(
    command: string,
    path: string,
    name: string,
    part: nat,
    originalPath: string,
    originalName: string,
    content: seq<byte>)

  /** The columns all rows of one indexing pass share. */
  datatype Target = Target(
    command: string,
    path: string,
    name: string,
    originalPath: string,
    originalName: string)

  function Concat(chunks: seq<seq<byte>>): seq<byte>
    decreases |chunks|
  {
    if |chunks| == 0 then [] else chunks[0] + Concat(chunks[1..])
  }

  /** The successive buffers a read loop fills from `data`: all full but
      the last, none empty, and together exactly `data`. */
  function Chunks(data: seq<byte>): (r: seq<seq<byte>>)
    ensures Concat(r) == data
    ensures forall i :: 0 <= i < |r| ==> 0 < |r[i]| <= ChunkSize
    ensures forall i :: 0 <= i < |r| - 1 ==> |r[i]| == ChunkSize
    decreases |data|
  {
    if |data| == 0 then []
    else if |data| <= ChunkSize then [data]
    else
      var rest := Chunks(data[ChunkSize..]);
      assert ([data[..ChunkSize]] + rest)[1..] == rest;
      assert data[..ChunkSize] + data[ChunkSize..] == data;
      [data[..ChunkSize]] + rest
  }

  /** The rows for a sequence of chunks, part `i` holding chunk `i`. */
  function Records(t: Target, chunks: seq<seq<byte>>): seq<IndexRecord> {
    seq(|chunks|, i requires 0 <= i < |chunks| =>
      IndexRecord(t.command, t.path, t.name, i, t.originalPath, t.originalName, chunks[i]))
  }

  /** The rows the database keeps, in insertion order. */
  function Accepted(accepts: IndexRecord -> bool, records: seq<IndexRecord>): seq<IndexRecord>
    decreases |records|
  {
    if |records| == 0 then []
    else
      var rest := Accepted(accepts, records[1..]);
      if accepts(records[0]) then [records[0]] + rest else rest
  }

  /** The kept rows are exactly the accepted ones, none added. */
  lemma {:induction false} AcceptedMembers(accepts: IndexRecord -> bool, records: seq<IndexRecord>)
    ensures |Accepted(accepts, records)| <= |records|
    ensures forall x :: x in Accepted(accepts, records) <==> x in records && accepts(x)
    decreases |records|
  {
    if |records| > 0 {
      AcceptedMembers(accepts, records[1..]);
      assert forall x :: x in records <==> x == records[0] || x in records[1..];
    }
  }

  /** The bytes indexed after a write: those past the size the file had
      before it, found by seeking to that size in the new content. */
  function IndexedBytes(content: seq<byte>, existingSize: nat): (r: seq<byte>)
    ensures existingSize <= |content| ==> content[..existingSize] + r == content
    ensures existingSize >= |content| ==> r == []
  {
    if existingSize <= |content| then content[existingSize..] else []
  }

  /** The index after one indexing pass over `content`: the old rows stay
      in front, and every new row is one the database accepted, carries
      the pass's columns and holds a buffer of the bytes past the old
      size. */
  function IndexText(
    accepts: IndexRecord -> bool, index: seq<IndexRecord>, t: Target,
    content: seq<byte>, existingSize: nat): (r: seq<IndexRecord>)
    ensures index <= r
    ensures |r| - |index| <= |Chunks(IndexedBytes(content, existingSize))|
    ensures forall x :: x in r[|index|..] ==>
      && accepts(x)
      && x.command == t.command && x.path == t.path && x.name == t.name
      && x.originalPath == t.originalPath && x.originalName == t.originalName
      && x.part < |Chunks(IndexedBytes(content, existingSize))|
      && x.content == Chunks(IndexedBytes(content, existingSize))[x.part]
    ensures var ch := Chunks(IndexedBytes(content, existingSize));
      forall i :: 0 <= i < |ch| ==>
        (IndexRecord(t.command, t.path, t.name, i, t.originalPath, t.originalName, ch[i]) in r[|index|..]
         <==> accepts(IndexRecord(t.command, t.path, t.name, i, t.originalPath, t.originalName, ch[i])))
    ensures forall i, j :: |index| <= i < j < |r| ==> r[i].part < r[j].part
  {
    var ch := Chunks(IndexedBytes(content, existingSize));
    var rows := Accepted(accepts, Records(t, ch));
    AcceptedMembers(accepts, Records(t, ch));
    AcceptedKeepsOrder(accepts, Records(t, ch));
    forall i | 0 <= i < |ch|
      ensures IndexRecord(t.command, t.path, t.name, i, t.originalPath, t.originalName, ch[i]) in Records(t, ch)
    {
      assert Records(t, ch)[i] == IndexRecord(t.command, t.path, t.name, i, t.originalPath, t.originalName, ch[i]);
    }
    assert (index + rows)[|index|..] == rows;
    index + rows
  }

  /** Dropping refused rows keeps the rest in part order. */
  lemma {:induction false} AcceptedKeepsOrder(accepts: IndexRecord -> bool, records: seq<IndexRecord>)
    requires forall i, j :: 0 <= i < j < |records| ==> records[i].part < records[j].part
    ensures var kept := Accepted(accepts, records);
      forall i, j :: 0 <= i < j < |kept| ==> kept[i].part < kept[j].part
    decreases |records|
  {
    if |records| > 0 {
      var rest := records[1..];
      assert forall i, j :: 0 <= i < j < |rest| ==> rest[i].part < rest[j].part by {
        forall i, j | 0 <= i < j < |rest| ensures rest[i].part < rest[j].part {
          assert rest[i] == records[i + 1] && rest[j] == records[j + 1];
        }
      }
      AcceptedKeepsOrder(accepts, rest);
      AcceptedMembers(accepts, rest);
      var tail := Accepted(accepts, rest);
      if accepts(records[0]) {
        var kept := [records[0]] + tail;
        forall i, j | 0 <= i < j < |kept| ensures kept[i].part < kept[j].part {
          if i == 0 {
            assert kept[j] == tail[j - 1];
            assert tail[j - 1] in rest;
            var k :| 0 <= k < |rest| && rest[k] == tail[j - 1];
            assert rest[k] == records[k + 1];
          } else {
            assert kept[i] == tail[i - 1] && kept[j] == tail[j - 1];
          }
        }
      }
    }
  }

  // ------------------------------------------------------------- lemmas

  lemma RecordsSnoc(t: Target, chunks: seq<seq<byte>>, c: seq<byte>)
    ensures Records(t, chunks + [c])
         == Records(t, chunks) + [IndexRecord(t.command, t.path, t.name, |chunks|, t.originalPath, t.originalName, c)]
  {
  }

  lemma {:induction false} AcceptedAppend(accepts: IndexRecord -> bool, xs: seq<IndexRecord>, ys: seq<IndexRecord>)
    ensures Accepted(accepts, xs + ys) == Accepted(accepts, xs) + Accepted(accepts, ys)
    decreases |xs|
  {
    if |xs| > 0 {
      assert (xs + ys)[0] == xs[0];
      assert (xs + ys)[1..] == xs[1..] + ys;
      AcceptedAppend(accepts, xs[1..], ys);
    } else {
      assert xs + ys == ys;
    }
  }

  /** When the database accepts every row, every row is kept in order. */
  lemma {:induction false} AcceptedAll(accepts: IndexRecord -> bool, records: seq<IndexRecord>)
    requires forall i :: 0 <= i < |records| ==> accepts(records[i])
    ensures Accepted(accepts, records) == records
    decreases |records|
  {
    if |records| > 0 {
      assert accepts(records[0]);
      AcceptedAll(accepts, records[1..]);
    }
  }

  function Contents(records: seq<IndexRecord>): seq<seq<byte>> {
    seq(|records|, i requires 0 <= i < |records| => records[i].content)
  }

  /** The rows of one pass split the indexed bytes into consecutive chunks
      of at most 4096 bytes: parts count 0, 1, 2, ... in order, each row
      carries the pass's columns, and the contents in part order give the
      indexed bytes back. */
  lemma RowsPartitionIndexedBytes(t: Target, data: seq<byte>)
    ensures var rows := Records(t, Chunks(data));
      && Concat(Contents(rows)) == data
      && (forall i :: 0 <= i < |rows| ==> rows[i].part == i && 0 < |rows[i].content| <= ChunkSize)
      && (forall i :: 0 <= i < |rows| ==>
            rows[i].command == t.command && rows[i].path == t.path && rows[i].name == t.name
            && rows[i].originalPath == t.originalPath && rows[i].originalName == t.originalName)
  {
    var rows := Records(t, Chunks(data));
    assert Contents(rows) == Chunks(data);
  }

  /** Rewriting a file with no more bytes than it had before indexes
      nothing at all: the seek to the old size lands at or past the end. */
  lemma ShortRewriteIndexesNothing(
    accepts: IndexRecord -> bool, index: seq<IndexRecord>, t: Target,
    content: seq<byte>, existingSize: nat)
    requires |content| <= existingSize
    ensures IndexText(accepts, index, t, content, existingSize) == index
  {
  }

  // ------------------------------------------------------- the read loop

  function Remaining(content: seq<byte>, pos: nat): seq<byte> {
    if pos <= |content| then content[pos..] else []
  }

  /** Inserting the row for one more chunk keeps it exactly when the
      database accepts it. */
  lemma AcceptedStep(accepts: IndexRecord -> bool, t: Target, done: seq<seq<byte>>, c: seq<byte>)
    ensures var rec := IndexRecord(t.command, t.path, t.name, |done|, t.originalPath, t.originalName, c);
      Accepted(accepts, Records(t, done + [c]))
        == Accepted(accepts, Records(t, done)) + (if accepts(rec) then [rec] else [])
  {
    var rec := IndexRecord(t.command, t.path, t.name, |done|, t.originalPath, t.originalName, c);
    RecordsSnoc(t, done, c);
    AcceptedAppend(accepts, Records(t, done), [rec]);
    assert [rec][1..] == [];
  }

  lemma SnocAssoc<T>(a: seq<T>, x: T, b: seq<T>)
    ensures a + ([x] + b) == (a + [x]) + b
  {
  }

  /** One buffer read at position `pos` takes the first chunk of what
      remains. */
  lemma ReadOneBuffer(content: seq<byte>, pos: nat, next: nat)
    requires pos < |content|
    requires next == pos + (if |content| - pos < ChunkSize then |content| - pos else ChunkSize)
    ensures Chunks(Remaining(content, pos)) == [content[pos..next]] + Chunks(Remaining(content, next))
  {
    var n := next - pos;
    var rest := Remaining(content, pos);
    assert rest[..n] == content[pos..next];
    assert rest[n..] == Remaining(content, next);
  }

  /** What the read loop knows after reading the chunks `done`, with the
      file position at `pos` and the index at `out`. */
  predicate ReadInvariant(
    accepts: IndexRecord -> bool, index: seq<IndexRecord>, t: Target,
    content: seq<byte>, existingSize: nat, pos: nat, done: seq<seq<byte>>, out: seq<IndexRecord>)
  {
    && done + Chunks(Remaining(content, pos)) == Chunks(IndexedBytes(content, existingSize))
    && out == index + Accepted(accepts, Records(t, done))
  }

  /** The chunk half of the read-loop invariant survives one read. */
  lemma ReadStepChunks(content: seq<byte>, existingSize: nat, pos: nat, done: seq<seq<byte>>, next: nat)
    requires done + Chunks(Remaining(content, pos)) == Chunks(IndexedBytes(content, existingSize))
    requires pos < |content|
    requires next == pos + (if |content| - pos < ChunkSize then |content| - pos else ChunkSize)
    ensures (done + [content[pos..next]]) + Chunks(Remaining(content, next))
         == Chunks(IndexedBytes(content, existingSize))
  {
    ReadOneBuffer(content, pos, next);
    SnocAssoc(done, content[pos..next], Chunks(Remaining(content, next)));
  }

  /** The index half of the read-loop invariant survives one insert. */
  lemma ReadStepRows(
    accepts: IndexRecord -> bool, index: seq<IndexRecord>, t: Target,
    done: seq<seq<byte>>, out: seq<IndexRecord>, buffer: seq<byte>)
    requires out == index + Accepted(accepts, Records(t, done))
    ensures var rec := IndexRecord(t.command, t.path, t.name, |done|, t.originalPath, t.originalName, buffer);
      Insert(accepts, out, rec) == index + Accepted(accepts, Records(t, done + [buffer]))
  {
    var rec := IndexRecord(t.command, t.path, t.name, |done|, t.originalPath, t.originalName, buffer);
    var kept := Accepted(accepts, Records(t, done));
    AcceptedStep(accepts, t, done, buffer);
    if accepts(rec) {
      assert out + [rec] == index + (kept + [rec]);
    }
  }

  /** One read of the loop keeps the invariant: `buffer` is the next
      block of content and `rec` its row. */
  lemma ReadStep(
    accepts: IndexRecord -> bool, index: seq<IndexRecord>, t: Target,
    content: seq<byte>, existingSize: nat, pos: nat, done: seq<seq<byte>>, out: seq<IndexRecord>,
    next: nat, rec: IndexRecord)
    requires ReadInvariant(accepts, index, t, content, existingSize, pos, done, out)
    requires pos < |content|
    requires next == pos + (if |content| - pos < ChunkSize then |content| - pos else ChunkSize)
    requires rec == IndexRecord(t.command, t.path, t.name, |done|, t.originalPath, t.originalName, content[pos..next])
    ensures ReadInvariant(accepts, index, t, content, existingSize, next, done + [content[pos..next]], Insert(accepts, out, rec))
  {
    ReadStepChunks(content, existingSize, pos, done, next);
    ReadStepRows(accepts, index, t, done, out, content[pos..next]);
  }

  /** The read loop of main.go:424-436: seek past the old size when there
      was one, then read buffer after buffer until end of file, inserting a
      row per buffer with `part` counting up from 0 and skipping rows the
      database refuses. The result is the functional `IndexText`. */
  method ReadAndIndex(
    accepts: IndexRecord -> bool, index: seq<IndexRecord>, t: Target,
    content: seq<byte>, existingSize: nat)
    returns (out: seq<IndexRecord>)
    ensures out == IndexText(accepts, index, t, content, existingSize)
  {
    var pos: nat := 0;
    if existingSize > 0 {
      pos := existingSize;
    }
    var part: nat := 0;
    ghost var done: seq<seq<byte>> := [];
    out := index;
    ReadStart(accepts, index, t, content, existingSize, pos);
    while pos < |content|
      invariant ReadInvariant(accepts, index, t, content, existingSize, pos, done, out)
      invariant part == |done|
      decreases |content| - pos
    {
      var next;
      next, out := ReadOnce(accepts, index, t, content, existingSize, pos, part, done, out);
      done := done + [content[pos..next]];
      part := part + 1;
      pos := next;
    }
    ReadDone(accepts, index, t, content, existingSize, pos, done, out);
  }

  /** One turn of the read loop (main.go:424-436): read the next buffer
      of at most 4096 bytes and offer its row, numbered `part`, to the
      database. */
  method ReadOnce(
    accepts: IndexRecord -> bool, index: seq<IndexRecord>, t: Target,
    content: seq<byte>, existingSize: nat, pos: nat, part: nat, ghost done: seq<seq<byte>>, out: seq<IndexRecord>)
    returns (next: nat, out': seq<IndexRecord>)
    requires ReadInvariant(accepts, index, t, content, existingSize, pos, done, out)
    requires part == |done| && pos < |content|
    ensures pos < next <= |content|
    ensures ReadInvariant(accepts, index, t, content, existingSize, next, done + [content[pos..next]], out')
  {
    next := pos + if |content| - pos < ChunkSize then |content| - pos else ChunkSize;
    var buffer := content[pos..next];
    var rec := IndexRecord(t.command, t.path, t.name, part, t.originalPath, t.originalName, buffer);
    ReadStep(accepts, index, t, content, existingSize, pos, done, out, next, rec);
    out' := Insert(accepts, out, rec);
  }

  /** The index after the database is offered one row: a refused insert
      is logged and leaves the index as it was, an accepted row is added
      at the end. */
  function Insert(accepts: IndexRecord -> bool, index: seq<IndexRecord>, rec: IndexRecord): (r: seq<IndexRecord>)
    ensures index <= r && |r| <= |index| + 1
    ensures |r| == |index| + 1 <==> accepts(rec)
    ensures |r| == |index| + 1 ==> r[|index|] == rec
  {
    if accepts(rec) then index + [rec] else index
  }

  /** Before the first read, with the position past the old size. */
  lemma ReadStart(
    accepts: IndexRecord -> bool, index: seq<IndexRecord>, t: Target,
    content: seq<byte>, existingSize: nat, pos: nat)
    requires pos == existingSize
    ensures ReadInvariant(accepts, index, t, content, existingSize, pos, [], index)
  {
    assert Remaining(content, pos) == IndexedBytes(content, existingSize);
  }

  /** At end of file the rows inserted are those of the functional pass. */
  lemma ReadDone(
    accepts: IndexRecord -> bool, index: seq<IndexRecord>, t: Target,
    content: seq<byte>, existingSize: nat, pos: nat, done: seq<seq<byte>>, out: seq<IndexRecord>)
    requires ReadInvariant(accepts, index, t, content, existingSize, pos, done, out)
    requires pos >= |content|
    ensures out == IndexText(accepts, index, t, content, existingSize)
  {
    assert Remaining(content, pos) == [];
    assert done + [] == done;
  }
}

=== FILE: upload.dfy ===
/** The POST side of the router (main.go:442-505, 773-783): the URL path is
    split on '/', a POST whose second token is `files` goes to
    `postFilesHandler`, which either ingests the request body as the single
    file the path names, or, with `?install=true`, unpacks a tar archive
    and ingests each regular entry below that path, stopping at the first
    entry that fails. Every root call is made with cascade on and with the
    original location equal to the stored location. */
module Upload {
  import opened Strings
  import opened GoPath
  import opened Ingest

  datatype EntryType = Regular | OtherType

  /** One archive entry as the tar reader yields it: its type flag, its
      header name and its content stream. */
  datatype TarEntry = TarEntry(typeflag: EntryType, name: string, body: Stream)

  /** The directory and file name an archive entry is installed under: the
      entry name loses its first component and is placed below
      `parentDir/name`, and the result is cleaned lexically
      (main.go:477-480). */
  function EntryDestination(parentDir: string, name: string, entryName: string): (string, string) {
    var rest := Split(entryName, '/')[1..];
    (Dir(parentDir + "/" + name + "/" + Join(rest, '/')), Base(entryName))
  }

  /** The `postFileHandler` call made for an archive entry (main.go:482). */
  function EntryCall(command: string, parentDir: string, name: string, e: TarEntry): Call {
    var (dir, base) := EntryDestination(parentDir, name, e.name);
    Call(command, dir, base, dir, base, true)
  }

  /** The calls for `regs`, one per entry, in order. */
  function EntryCalls(regs: seq<TarEntry>, command: string, parentDir: string, name: string): seq<Call>
    decreases |regs|
  {
    if |regs| == 0 then []
    else [EntryCall(command, parentDir, name, regs[0])] + EntryCalls(regs[1..], command, parentDir, name)
  }

  /** The calls for the regular entries of an archive, in archive order. */
  function RegularCalls(entries: seq<TarEntry>, command: string, parentDir: string, name: string): seq<Call> {
    EntryCalls(RegularEntries(entries), command, parentDir, name)
  }

  /** The calls entered at depth 0 on a trace, in order. */
  function Roots(trace: seq<Event>): seq<Call>
    decreases |trace|
  {
    if |trace| == 0 then []
    else
      Roots(trace[..|trace| - 1])
      + (match trace[|trace| - 1]
         case Entered(c, d) => if d == 0 then [c] else []
         case Invoked(_, _) => [])
  }

  /** The regular entries of an archive, in archive order. */
  function RegularEntries(entries: seq<TarEntry>): (regs: seq<TarEntry>)
    ensures forall k :: 0 <= k < |regs| ==> regs[k].typeflag == Regular
    decreases |entries|
  {
    if |entries| == 0 then []
    else (if entries[0].typeflag == Regular then [entries[0]] else []) + RegularEntries(entries[1..])
  }

  /** The root calls entered between `before` and `after` are `calls`
      when the loop succeeded, and a non-empty prefix of `calls` when it
      failed, the last one being the call that failed. */
  ghost predicate InstalledInOrder(before: seq<Event>, after: seq<Event>, outcome: Outcome, calls: seq<Call>) {
    && before <= after
    && var roots := Roots(after[|before|..]);
    && (outcome.Ok? ==> roots == calls)
    && (outcome.Fail? ==> 0 < |roots| <= |calls| && roots == calls[..|roots|])
  }

  /** What the install loop leaves behind: its final step, and the step of
      every regular entry it ingested, in order. */
  datatype Installation = Installation(step: Step, results: seq<Step>)

  /** The world the `k`-th ingestion of a chain starts from. */
  function Before(w: World, results: seq<Step>, k: nat): World
    requires k <= |results|
  {
    if k == 0 then w else results[k - 1].world
  }

  /** The step a chain of ingestions ends with: the last one, or nothing
      done at all. */
  function Final(w: World, results: seq<Step>): Step {
    if |results| == 0 then Step(w, Outcome.Ok) else results[|results| - 1]
  }

  /** `results` ingests a prefix of the regular entries `regs` one after
      the other, each from the world the previous one left, and all but
      the last of them succeeded. */
  ghost predicate Chained(
    env: Env, w: World, results: seq<Step>, regs: seq<TarEntry>, command: string, parentDir: string, name: string)
  {
    && |results| <= |regs|
    && (forall k :: 0 <= k < |results| ==>
          results[k] == IngestEntry(env, Before(w, results, k), regs[k].body, EntryCall(command, parentDir, name, regs[k])))
    && (forall k :: 0 <= k < |results| - 1 ==> results[k].outcome.Ok?)
  }

  /** The install loop (main.go:466-488): non-regular entries are skipped,
      each regular entry is ingested at its destination from the world the
      previous one left, and the first failure ends the loop with that
      failure. So the loop succeeds exactly when it ingested every regular
      entry and each succeeded; when it fails, every entry before the last
      one ingested succeeded and the last one failed with the loop's
      outcome. On the trace, the root calls are the regular entries'
      calls in archive order: all of them on success, a non-empty prefix
      on failure. */
  function Install(
    env: Env, w: World, entries: seq<TarEntry>, command: string, parentDir: string, name: string): (r: Installation)
    ensures Chained(env, w, r.results, RegularEntries(entries), command, parentDir, name)
    ensures r.step == Final(w, r.results)
    ensures r.step.outcome.Ok? ==> |r.results| == |RegularEntries(entries)|
    ensures w.index <= r.step.world.index
    ensures InstalledInOrder(w.trace, r.step.world.trace, r.step.outcome, RegularCalls(entries, command, parentDir, name))
    decreases |entries|, 1
  {
    if |entries| == 0 then
      assert w.trace[|w.trace|..] == [];
      Installation(Step(w, Outcome.Ok), [])
    else
      RegularCallsStep(entries, command, parentDir, name);
      if entries[0].typeflag != Regular then
        Install(env, w, entries[1..], command, parentDir, name)
      else
        InstallOne(env, w, entries, command, parentDir, name)
  }

  /** One turn of the install loop for a regular first entry: the entry is
      ingested, and the loop goes on only if that succeeded. */
  function InstallOne(
    env: Env, w: World, entries: seq<TarEntry>, command: string, parentDir: string, name: string): (r: Installation)
    requires |entries| > 0
    ensures Chained(env, w, r.results, [entries[0]] + RegularEntries(entries[1..]), command, parentDir, name)
    ensures r.step == Final(w, r.results)
    ensures r.step.outcome.Ok? ==> |r.results| == 1 + |RegularEntries(entries[1..])|
    ensures w.index <= r.step.world.index
    ensures InstalledInOrder(
      w.trace, r.step.world.trace, r.step.outcome,
      [EntryCall(command, parentDir, name, entries[0])] + RegularCalls(entries[1..], command, parentDir, name))
    decreases |entries|, 0
  {
    var c := EntryCall(command, parentDir, name, entries[0]);
    var s := IngestEntry(env, w, entries[0].body, c);
    if s.outcome.Fail? then
      InstalledFirstFails(w.trace, s.world.trace, s.outcome, c, RegularCalls(entries[1..], command, parentDir, name));
      ChainedFirstFails(env, w, s, entries[0], RegularEntries(entries[1..]), command, parentDir, name);
      Installation(s, [s])
    else
      var r := Install(env, s.world, entries[1..], command, parentDir, name);
      InstalledThenRest(w.trace, s.world.trace, r.step.world.trace, r.step.outcome, c, RegularCalls(entries[1..], command, parentDir, name));
      PrefixTrans(w.index, s.world.index, r.step.world.index);
      ChainedCons(env, w, s, r.results, entries[0], RegularEntries(entries[1..]), command, parentDir, name);
      Installation(r.step, [s] + r.results)
  }

  /** The top-level `postFileHandler` call for one entry, seen from the
      loop: it enters exactly one root call, its own. */
  function IngestEntry(env: Env, w: World, stream: Stream, c: Call): (s: Step)
    ensures w.trace <= s.world.trace && w.index <= s.world.index
    ensures Roots(s.world.trace[|w.trace|..]) == [c]
  {
    PostFileHasOneRoot(env, w, stream, c);
    PostFile(env, w, stream, c, 0)
  }

  datatype Reply =
    | NotImplemented          // 501 from `postHandler`
    | Panicked                // the path-length branch of `postFilesHandler`, see below
    | Handled(step: Step)

  /** `postFilesHandler` (main.go:442-497), given the split path, the
      install flag, the request body and the entries a tar reader finds in
      it. The command token is replaced by `files` before the directory is
      rebuilt from the tokens. A path of fewer than two tokens does not get
      its error reply: the handler passes its still-nil error variable
      (main.go:443, 455) to `HandleError`, which calls its `Error` method
      (main.go:759), so the handler panics. */
  function PostFiles(
    env: Env, w: World, tokens: seq<string>, install: bool, body: Stream, archive: seq<TarEntry>): (r: Reply)
    ensures r.Panicked? <==> |tokens| < 2
    ensures |tokens| >= 2 ==> r.Handled?
    ensures r.Handled? && !install ==>
      var path := tokens[1 := "files"];
      && |r.step.world.trace| > |w.trace|
      && r.step.world.trace[|w.trace|].Entered?
      && r.step.world.trace[|w.trace|].depth == 0
      && var root := r.step.world.trace[|w.trace|].call;
      && FullName(root) == Join(path, '/')
      && root.parentDir == Join(path[..|path| - 1], '/')
      && root.name == path[|path| - 1]
      && root.command == tokens[1] && root.cascade
      && root.originalParentDir == root.parentDir && root.originalName == root.name
      && FullName(root) in r.step.world.store && r.step.world.store[FullName(root)] == body.bytes
    ensures r.Handled? && install ==>
      var path := tokens[1 := "files"];
      InstalledInOrder(
        w.trace, r.step.world.trace, r.step.outcome,
        RegularCalls(archive, tokens[1], Join(path[..|path| - 1], '/'), path[|path| - 1]))
  {
    if |tokens| < 2 then Panicked
    else
      var command := tokens[1];
      var path := tokens[1 := "files"];
      var parentDir := Join(path[..|path| - 1], '/');
      var name := path[|path| - 1];
      if install then
        Handled(Install(env, w, archive, command, parentDir, name).step)
      else
        JoinDropLast(path, '/');
        Handled(PostFile(env, w, body, Call(command, parentDir, name, parentDir, name, true), 0))
  }

  /** `rootRouter` and `postHandler` for a POST (main.go:499-505, 775): the
      path is split on '/', and only `/files/...` with at least one more
      token is handled, so the panicking branch of `postFilesHandler` is
      never reached this way. A single upload is stored under exactly the
      request path, as a `files` root call with cascade on and its own
      location as origin; an archive's regular entries are installed below
      that path as `files` root calls. */
  function Post(
    env: Env, w: World, urlPath: string, install: bool, body: Stream, archive: seq<TarEntry>): (r: Reply)
    ensures !r.Panicked?
    ensures r.Handled? && !install ==>
      var tokens := Split(urlPath, '/');
      && |r.step.world.trace| > |w.trace|
      && r.step.world.trace[|w.trace|].Entered?
      && r.step.world.trace[|w.trace|].depth == 0
      && var root := r.step.world.trace[|w.trace|].call;
      && FullName(root) == urlPath
      && root.parentDir == Join(tokens[..|tokens| - 1], '/')
      && root.name == tokens[|tokens| - 1]
      && root.command == "files" && root.cascade
      && root.originalParentDir == root.parentDir && root.originalName == root.name
      && urlPath in r.step.world.store && r.step.world.store[urlPath] == body.bytes
    ensures r.Handled? && install ==>
      var tokens := Split(urlPath, '/');
      InstalledInOrder(
        w.trace, r.step.world.trace, r.step.outcome,
        RegularCalls(archive, "files", Join(tokens[..|tokens| - 1], '/'), tokens[|tokens| - 1]))
  {
    var tokens := Split(urlPath, '/');
    if |tokens| > 2 && tokens[1] == "files" then
      assert tokens[1 := "files"] == tokens;
      FilesUpload(env, w, tokens, body, archive);
      PostFiles(env, w, tokens, install, body, archive)
    else NotImplemented
  }

  /** For tokens whose second one is already `files`, a single upload goes
      to the directory joined from all tokens but the last, under the last
      token as its name. */
  lemma FilesUpload(env: Env, w: World, tokens: seq<string>, body: Stream, archive: seq<TarEntry>)
    requires |tokens| > 2 && tokens[1] == "files"
    ensures var r := PostFiles(env, w, tokens, false, body, archive);
      && r.Handled?
      && |r.step.world.trace| > |w.trace|
      && r.step.world.trace[|w.trace|].Entered?
      && var root := r.step.world.trace[|w.trace|].call;
      && root.parentDir == Join(tokens[..|tokens| - 1], '/')
      && root.name == tokens[|tokens| - 1]
  {
    assert tokens[1 := "files"] == tokens;
  }

  /** `postHandler` answers a POST with a handled request exactly when the
      path is a `FilesPath`, and with 501 otherwise (main.go:500-504). */
  lemma PostDispatch(env: Env, w: World, urlPath: string, install: bool, body: Stream, archive: seq<TarEntry>)
    ensures var r := Post(env, w, urlPath, install, body, archive);
      && (r.Handled? <==> FilesPath(urlPath))
      && (!r.Handled? ==> r.NotImplemented?)
  {
    DispatchCondition(urlPath);
  }

  // --------------------------------------------------------------- lemmas

  lemma {:induction false} RootsAppend(a: seq<Event>, b: seq<Event>)
    ensures Roots(a + b) == Roots(a) + Roots(b)
    decreases |b|
  {
    if |b| > 0 {
      var last := b[|b| - 1];
      assert (a + b)[..|a + b| - 1] == a + b[..|b| - 1];
      RootsAppend(a, b[..|b| - 1]);
    } else {
      assert a + b == a;
    }
  }

  lemma {:induction false} RootsOfDeeper(trace: seq<Event>)
    requires forall i :: 0 <= i < |trace| && trace[i].Entered? ==> trace[i].depth > 0
    ensures Roots(trace) == []
    decreases |trace|
  {
    if |trace| > 0 {
      RootsOfDeeper(trace[..|trace| - 1]);
    }
  }

  /** A top-level ingestion enters exactly one call at depth 0: itself. */
  lemma PostFileHasOneRoot(env: Env, w: World, stream: Stream, c: Call)
    ensures var r := PostFile(env, w, stream, c, 0);
      Roots(r.world.trace[|w.trace|..]) == [c]
  {
    var r := PostFile(env, w, stream, c, 0);
    assert |Written(w, stream, c, 0).trace| == |w.trace| + 1;
    OneRoot(env, w.trace, r.world.trace, c);
  }

  /** A trace segment that opens with a root call and continues with that
      call's nested events has that call as its only root. */
  lemma OneRoot(env: Env, before: seq<Event>, after: seq<Event>, c: Call)
    requires before <= after && |after| > |before| && after[|before|] == Entered(c, 0)
    requires forall i :: |before| + 1 <= i < |after| ==> NestedEvent(env, after[i], c, 0)
    ensures Roots(after[|before|..]) == [c]
  {
    var nested := after[|before| + 1..];
    assert after[|before|..] == [Entered(c, 0)] + nested;
    forall i | 0 <= i < |nested| && nested[i].Entered? ensures nested[i].depth > 0 {
      assert NestedEvent(env, after[|before| + 1 + i], c, 0);
    }
    RootsOfDeeper(nested);
    RootsAppend([Entered(c, 0)], nested);
    assert Roots([Entered(c, 0)]) == Roots([]) + [c];
  }

  lemma RegularCallsStep(entries: seq<TarEntry>, command: string, parentDir: string, name: string)
    requires |entries| > 0
    ensures entries[0].typeflag != Regular ==>
      RegularCalls(entries, command, parentDir, name) == RegularCalls(entries[1..], command, parentDir, name)
    ensures entries[0].typeflag == Regular ==>
      RegularCalls(entries, command, parentDir, name)
        == [EntryCall(command, parentDir, name, entries[0])] + RegularCalls(entries[1..], command, parentDir, name)
    ensures entries[0].typeflag != Regular ==> RegularEntries(entries) == RegularEntries(entries[1..])
    ensures entries[0].typeflag == Regular ==> RegularEntries(entries) == [entries[0]] + RegularEntries(entries[1..])
  {
    var regs := RegularEntries(entries);
    var tail := RegularEntries(entries[1..]);
    if entries[0].typeflag != Regular {
      assert regs == tail by {
        assert [] + tail == tail;
      }
    } else {
      assert regs == [entries[0]] + tail;
      assert regs[0] == entries[0] && regs[1..] == tail;
    }
  }

  /** A first ingestion that fails is a whole chain, and ends it. */
  lemma ChainedFirstFails(
    env: Env, w: World, s: Step, e: TarEntry, regs: seq<TarEntry>, command: string, parentDir: string, name: string)
    requires s == IngestEntry(env, w, e.body, EntryCall(command, parentDir, name, e))
    ensures Chained(env, w, [s], [e] + regs, command, parentDir, name)
    ensures Final(w, [s]) == s
  {
    assert ([e] + regs)[0] == e && Before(w, [s], 0) == w;
  }

  /** A successful first ingestion followed by a chain from the world it
      left is a chain from the start, ending where the rest ends. */
  lemma ChainedCons(
    env: Env, w: World, s: Step, rest: seq<Step>, e: TarEntry, regs: seq<TarEntry>,
    command: string, parentDir: string, name: string)
    requires s == IngestEntry(env, w, e.body, EntryCall(command, parentDir, name, e)) && s.outcome.Ok?
    requires Chained(env, s.world, rest, regs, command, parentDir, name)
    ensures Chained(env, w, [s] + rest, [e] + regs, command, parentDir, name)
    ensures Final(w, [s] + rest) == Final(s.world, rest)
  {
    ChainedConsSteps(env, w, s, rest, e, regs, command, parentDir, name);
    ChainedConsOutcomes(s, rest);
  }

  lemma ChainedConsSteps(
    env: Env, w: World, s: Step, rest: seq<Step>, e: TarEntry, regs: seq<TarEntry>,
    command: string, parentDir: string, name: string)
    requires s == IngestEntry(env, w, e.body, EntryCall(command, parentDir, name, e))
    requires |rest| <= |regs|
    requires forall k :: 0 <= k < |rest| ==>
      rest[k] == IngestEntry(env, Before(s.world, rest, k), regs[k].body, EntryCall(command, parentDir, name, regs[k]))
    ensures forall k :: 0 <= k < |[s] + rest| ==>
      ([s] + rest)[k]
        == IngestEntry(env, Before(w, [s] + rest, k), ([e] + regs)[k].body, EntryCall(command, parentDir, name, ([e] + regs)[k]))
  {
    var all := [s] + rest;
    forall k | 0 <= k < |all|
      ensures all[k] == IngestEntry(env, Before(w, all, k), ([e] + regs)[k].body, EntryCall(command, parentDir, name, ([e] + regs)[k]))
    {
      if k == 0 {
        assert all[0] == s && ([e] + regs)[0] == e && Before(w, all, 0) == w;
      } else {
        ConsShift(w, s, rest, e, regs, k);
      }
    }
  }

  /** Position `k > 0` of a chain with a new first step is position
      `k - 1` of the old chain. */
  lemma ConsShift(w: World, s: Step, rest: seq<Step>, e: TarEntry, regs: seq<TarEntry>, k: nat)
    requires 0 < k <= |rest| <= |regs|
    ensures ([s] + rest)[k] == rest[k - 1] && ([e] + regs)[k] == regs[k - 1]
    ensures Before(w, [s] + rest, k) == Before(s.world, rest, k - 1)
  {
    if k > 1 {
      assert ([s] + rest)[k - 1] == rest[k - 2];
    }
  }

  lemma ChainedConsOutcomes(s: Step, rest: seq<Step>)
    requires s.outcome.Ok?
    requires forall k :: 0 <= k < |rest| - 1 ==> rest[k].outcome.Ok?
    ensures forall k :: 0 <= k < |[s] + rest| - 1 ==> ([s] + rest)[k].outcome.Ok?
    ensures forall w: World :: Final(w, [s] + rest) == Final(s.world, rest)
  {
    var all := [s] + rest;
    forall k | 0 <= k < |all| - 1 ensures all[k].outcome.Ok? {
      if k > 0 {
        assert all[k] == rest[k - 1];
      }
    }
  }

  lemma InstalledFirstFails(before: seq<Event>, after: seq<Event>, outcome: Outcome, c: Call, rest: seq<Call>)
    requires before <= after && Roots(after[|before|..]) == [c] && outcome.Fail?
    ensures InstalledInOrder(before, after, outcome, [c] + rest)
  {
    assert ([c] + rest)[..1] == [c];
  }

  lemma InstalledThenRest(
    before: seq<Event>, middle: seq<Event>, after: seq<Event>, outcome: Outcome, c: Call, rest: seq<Call>)
    requires before <= middle && Roots(middle[|before|..]) == [c]
    requires InstalledInOrder(middle, after, outcome, rest)
    ensures InstalledInOrder(before, after, outcome, [c] + rest)
  {
    PrefixTrans(before, middle, after);
    assert after[|before|..] == middle[|before|..] + after[|middle|..];
    RootsAppend(middle[|before|..], after[|middle|..]);
    var roots := Roots(after[|middle|..]);
    if outcome.Fail? {
      assert ([c] + rest)[..1 + |roots|] == [c] + rest[..|roots|];
    }
  }

  /** A path split into more than two tokens with `files` second is its
      first token, `/files/`, and the rest. */
  lemma HandledPathShape(urlPath: string)
    requires |Split(urlPath, '/')| > 2 && Split(urlPath, '/')[1] == "files"
    ensures var tokens := Split(urlPath, '/');
      urlPath == tokens[0] + "/files/" + Join(tokens[2..], '/')
  {
    var tokens := Split(urlPath, '/');
    assert tokens == [tokens[0]] + ([tokens[1]] + tokens[2..]);
    JoinAppend([tokens[0]], [tokens[1]] + tokens[2..], '/');
    JoinAppend([tokens[1]], tokens[2..], '/');
  }

  /** Splitting `a/files/rest`, with no slash in `a`, gives `a`, `files` and
      the tokens of `rest`. */
  lemma SplitFilesPath(a: string, rest: string)
    requires '/' !in a
    ensures Split(a + "/files/" + rest, '/') == [a, "files"] + Split(rest, '/')
  {
    var tail := "files" + ['/'] + rest;
    assert a + "/files/" + rest == a + ['/'] + tail;
    SplitAround(a, tail, '/');
    SplitWord(a, '/');
    SplitFilesTail(rest);
  }

  lemma SplitFilesTail(rest: string)
    ensures Split("files" + ['/'] + rest, '/') == ["files"] + Split(rest, '/')
  {
    SplitAround("files", rest, '/');
    SplitWord("files", '/');
  }

  /** A path made of some first token without a slash, then `/files/`,
      then anything. */
  ghost predicate FilesPath(urlPath: string) {
    exists a, rest :: '/' !in a && urlPath == a + "/files/" + rest
  }

  /** The router's token test accepts exactly the `FilesPath` paths. */
  lemma DispatchCondition(urlPath: string)
    ensures (|Split(urlPath, '/')| > 2 && Split(urlPath, '/')[1] == "files") <==> FilesPath(urlPath)
  {
    var tokens := Split(urlPath, '/');
    if |tokens| > 2 && tokens[1] == "files" {
      HandledPathShape(urlPath);
      assert '/' !in tokens[0];
    }
    if exists a, rest :: '/' !in a && urlPath == a + "/files/" + rest {
      var a, rest :| '/' !in a && urlPath == a + "/files/" + rest;
      SplitFilesPath(a, rest);
    }
  }

  /** An entry named `lead/m1/.../mk/f` with plain components is installed
      as file `f` in directory `parentDir/name/m1/.../mk`, whatever its
      leading component. */
  lemma ArchiveEntryDestination(
    parentDir: string, name: string, segs: seq<string>, lead: string, mids: seq<string>, f: string)
    requires |segs| >= 1 && AllNormal(segs)
    requires Split(parentDir + "/" + name, '/') == [""] + segs
    requires '/' !in lead && AllNormal(mids) && Normal(f)
    ensures EntryDestination(parentDir, name, Join([lead] + mids + [f], '/'))
         == (Join([""] + (segs + mids), '/'), f)
  {
    var parts := [lead] + mids + [f];
    var rest := mids + [f];
    SplitEntryName(lead, mids, f);
    AllNormalAppend(mids, [f]);
    assert rest[..|rest| - 1] == mids;
    DirOfRootedPath(parentDir + "/" + name, segs, rest);
    BaseIsLastElement(Join(parts, '/'));
  }

  lemma SplitEntryName(lead: string, mids: seq<string>, f: string)
    requires '/' !in lead && AllNormal(mids) && Normal(f)
    ensures Split(Join([lead] + mids + [f], '/'), '/') == [lead] + mids + [f]
    ensures Split(Join([lead] + mids + [f], '/'), '/')[1..] == mids + [f]
  {
    var parts := [lead] + mids + [f];
    forall i | 0 <= i < |parts| ensures '/' !in parts[i] {
      if 0 < i < |parts| - 1 {
        assert parts[i] == mids[i - 1];
      }
    }
    SplitJoin(parts, '/');
    assert parts[1..] == mids + [f];
  }
}

=== FILE: wrappers.dfy ===
/** The value-or-error result the external services return. */
module Wrappers {

  datatype Result<+T> = Ok(value: T) | Err(message: string)
}
